=== FILE: README.md ===
# proactive-java, modelled in Dafny

proactive-java is a small Java DSL for composing reactive streams. It has
statements (`The`, `Check`, `Wait`, `Try`, `First`), each a supplier of a
`Context`. A pluggable `ProactiveDriver` combines these contexts and runs
them. The driver is chosen through a process-wide registry. An adapter
family translates between Reactive Streams and `java.util.concurrent.Flow`.

This project models that core over finite, sequential runs.

- **Contexts.** A `Context<T>` is a `Trace<T>`: the values it emits, in order,
  followed by exactly one terminal, `Complete` or `Error(e)`.
- **Statements.** A statement is represented by the trace its `get()` returns.
  Branch and follow-up functions (`I -> Statement<O>`) are Dafny functions
  `I -> Trace<O>`.
- **Driver contract.** The operations documented on the driver interface
  (`empty`, `just`, `filter`, `find`, `first`, `flatMap`, callback `subscribe`)
  are pure functions on traces, in module `ProactiveDriver`.
- **Registry.** The `ProactiveDriver.Find` registry is a state machine over an
  explicit slot and a fixed discovery order (`DriverRegistry`). Every lookup
  threads the registry state and reports IllegalStateException as a result
  value.
- **Adapters.** Adapter objects are a datatype `Native(side, kind, id) |
  Wrapped(side, inner)`. Java's static typing becomes preconditions. A
  NullPointerException is a result value. Wrapper forwarding is a relation
  from a call on a wrapper to the call that reaches a native object
  (`AdapterSupport`).
- **Helpers.** `Util.isTruthy`/`areEqual` work over a small value universe
  `Null | Bool(b) | Other(x)`. Java `equals` and reference identity are value
  equality.

Modules:

| file | module |
|---|---|
| wrappers.dfy | `Wrappers` |
| util.dfy | `Util` |
| context.dfy | `Context` |
| proactive_driver.dfy | `ProactiveDriver` |
| driver_registry.dfy | `DriverRegistry` |
| adapter_support.dfy | `AdapterSupport` |
| statement.dfy | `Statement` |
| the.dfy | `TheStatement` |
| check.dfy | `CheckStatement` |
| wait.dfy | `WaitStatement` |
| try.dfy | `TryStatement` |
| first.dfy | `FirstStatement` |

The model follows the code where the code and its descriptions disagree:

- **`find` and `first` after an upstream error.** Once a value has been passed
  on, `find` and `first` complete. An upstream error that would come later is
  never observed. Only an error before any passing value reaches the output.
  This is what the code does: both backends take the first value and then
  stop, and the interface comments in
  `core/src/main/java/proactive/core/ProactiveDriver.java:57-75` promise
  completion right after the first passing value.
- **`Check` checks every value.** The `Check` constructor comment says only the
  first value is considered. `Then.get()` and `Otherwise.get()` check every
  upstream value (`CheckStatement.EveryValueIsCheckedExample`).
- **`Then.get()` without a match.** With no matching value, `Then.get()` ends
  as the upstream ends. It completes when the upstream completes, and fails
  when the upstream fails.

## Model

| member | source | states |
|---|---|---|
| Util.IsTruthy | core/src/main/java/proactive/core/Util.java:15-21 | a value is truthy exactly when it is neither null nor Boolean false; true is truthy and any other object is truthy |
| Util.IsFalsy | core/src/main/java/proactive/core/Util.java:31-33 | a value is falsy exactly when it is null or Boolean false |
| Util.AreEqual | core/src/main/java/proactive/core/Util.java:35-37 | null-safe equality coincides with value equality |
| Util.TruthyCases | core/src/main/java/proactive/core/Util.java:15-21 | null and false are not truthy; true and every non-Boolean object are |
| Util.FalsyIsNotTruthy | core/src/main/java/proactive/core/Util.java:31-33 | isFalsy is the negation of isTruthy for every value |
| Util.AreEqualProperties | core/src/main/java/proactive/core/Util.java:35-37 | areEqual is reflexive and symmetric; areEqual(null, b) iff b is null; a non-null value never equals null |
| ProactiveDriver.Empty | core/src/main/java/proactive/core/ProactiveDriver.java:39-45 | empty emits no value and completes |
| ProactiveDriver.Just | core/src/main/java/proactive/core/ProactiveDriver.java:92-100 | just(v) emits v alone, then completes |
| ProactiveDriver.JustAll | core/src/main/java/proactive/core/ProactiveDriver.java:102-111 | just(vs...) emits the values in argument order, then completes |
| ProactiveDriver.FilterValues | core/src/main/java/proactive/core/ProactiveDriver.java:47-55 | each value keeps all its occurrences when it matches and none when it does not; the result is no longer than the input |
| ProactiveDriver.Filter | core/src/main/java/proactive/core/ProactiveDriver.java:47-55 | filter passes exactly the matching values, never more than came in, and keeps the upstream terminal |
| ProactiveDriver.Find | core/src/main/java/proactive/core/ProactiveDriver.java:57-65 | find emits at most one value, the first match, then completes; with no match it emits nothing and ends as the upstream ends |
| ProactiveDriver.First | core/src/main/java/proactive/core/ProactiveDriver.java:67-75 | first emits a prefix of at most one value; it is empty iff the upstream is; a value is followed by completion, no value by the upstream terminal |
| ProactiveDriver.FlatMap | core/src/main/java/proactive/core/ProactiveDriver.java:77-90 | an upstream error is never lost; the output completes only when the upstream and every mapped trace complete |
| ProactiveDriver.FlatMapAllComplete | core/src/main/java/proactive/core/ProactiveDriver.java:77-90 | when every mapped trace completes, flatMap emits their values concatenated in upstream order and ends as the upstream ends |
| ProactiveDriver.FlatMapFirstError | core/src/main/java/proactive/core/ProactiveDriver.java:77-90 | the first failing mapped trace ends the output with its error, after the values of everything mapped before it |
| ProactiveDriver.FlatMapOutcome | core/src/main/java/proactive/core/ProactiveDriver.java:77-90 | a flatMap ends in one of two ways: the concatenation with the upstream terminal when every mapped trace completes, or, at the first failing mapped trace, everything before it followed by that trace and its error |
| ProactiveDriver.FlatMapAppend | core/src/main/java/proactive/core/ProactiveDriver.java:77-90 | flatMap over a concatenated upstream is the first part's output followed by the second part's |
| ProactiveDriver.FlatMapAssociative | core/src/main/java/proactive/core/ProactiveDriver.java:77-90 | two flatMaps in a row equal one flatMap by the composed mapper |
| ProactiveDriver.JustLeftIdentity | core/src/main/java/proactive/core/ProactiveDriver.java:77-100 | flatMap over just(v) is the mapped trace of v |
| ProactiveDriver.JustRightIdentity | core/src/main/java/proactive/core/ProactiveDriver.java:77-100 | flatMap by just is the identity |
| ProactiveDriver.EmptyAnnihilates | core/src/main/java/proactive/core/ProactiveDriver.java:39-90 | flatMap over empty is empty; mapping every value to empty leaves only the upstream terminal |
| ProactiveDriver.JustAllSingleton | core/src/main/java/proactive/core/ProactiveDriver.java:92-111 | just of one value in the list form equals the single-value form |
| ProactiveDriver.FilterValuesAppend | core/src/main/java/proactive/core/ProactiveDriver.java:47-55 | filtering distributes over concatenation, so order is kept |
| ProactiveDriver.FilterIsFlatMap | core/src/main/java/proactive/core/ProactiveDriver.java:47-90 | filter equals flatMap that maps a matching value to just(value) and any other to empty |
| ProactiveDriver.FindIsFirstOfFilter | core/src/main/java/proactive/core/ProactiveDriver.java:47-75 | find equals first applied to filter |
| ProactiveDriver.FirstIsFindAny | core/src/main/java/proactive/core/ProactiveDriver.java:57-75 | first equals find with a predicate every value satisfies |
| ProactiveDriver.FirstIdempotent | core/src/main/java/proactive/core/ProactiveDriver.java:67-75 | first applied twice equals first applied once |
| ProactiveDriver.Subscribe | core/src/main/java/proactive/core/ProactiveDriver.java:139-151 | the next callback receives exactly the emitted values, or nothing when it is null; a terminal callback runs only last; subscribe, error and complete callbacks run iff present and the trace ends that way; every signal goes to the callback of its kind that the caller passed, and the error delivered is the trace's own error |
| DriverRegistry.FindDefaultDriver | core/src/main/java/proactive/core/ProactiveDriver.java:195-200 | an empty slot is filled with the first discovered driver; the result is the slot's content, present iff any driver is available; a set slot is left alone |
| DriverRegistry.HasDefaultDriver | core/src/main/java/proactive/core/ProactiveDriver.java:207-209 | true exactly when a driver is set or discoverable |
| DriverRegistry.DefaultDriver | core/src/main/java/proactive/core/ProactiveDriver.java:218-226 | lookup succeeds iff a driver is available; a set slot is returned without discovery; a found driver is left in the slot; failure changes nothing |
| DriverRegistry.SetDefaultDriver | core/src/main/java/proactive/core/ProactiveDriver.java:235-237 | the slot holds exactly the given driver or null, and discovery is unchanged |
| DriverRegistry.LookupDiscovers | core/src/main/java/proactive/core/ProactiveDriver.java:195-226 | with the slot empty, lookup returns the first discovered driver and caches it |
| DriverRegistry.LookupIsStable | core/src/main/java/proactive/core/ProactiveDriver.java:218-226 | after a successful lookup, a further lookup returns the same driver and changes nothing |
| DriverRegistry.LookupFailsWhenNothingFound | core/src/main/java/proactive/core/ProactiveDriver.java:218-226 | with nothing set and nothing discovered, lookup fails and the slot stays empty |
| DriverRegistry.SetOverridesDiscovery | core/src/main/java/proactive/core/ProactiveDriver.java:218-237 | after setDefaultDriver(d), lookup returns d whatever discovery would find |
| DriverRegistry.ClearForcesRediscovery | core/src/main/java/proactive/core/ProactiveDriver.java:195-237 | after setDefaultDriver(null), lookup returns the first discovered driver, or fails when there is none |
| DriverRegistry.HasDefaultDriverAgreesWithLookup | core/src/main/java/proactive/core/ProactiveDriver.java:195-226 | hasDefaultDriver answers whether lookup succeeds and leaves the registry exactly as lookup does |
| DriverRegistry.Step | core/src/main/java/proactive/core/ProactiveDriver.java:171-239 | no registry call changes the drivers discovery lists |
| DriverRegistry.Run | core/src/main/java/proactive/core/ProactiveDriver.java:171-239 | no sequence of registry calls changes the drivers discovery lists |
| DriverRegistry.SlotOrigin | core/src/main/java/proactive/core/ProactiveDriver.java:171-239 | after any calls, the slot holds its initial driver, the first discovered driver, or a driver that was explicitly set |
| AdapterSupport.Adapt | core/src/main/java/proactive/core/AdapterSupport.java:18-114 | the result has the target protocol and shape; null raises a NullPointerException, except for subscription consumers, which give null; a wrapper of the opposite direction yields exactly its inner object; anything else is wrapped once; no adapter returns a wrapper of a wrapper |
| AdapterSupport.ToPublisher | core/src/main/java/proactive/core/AdapterSupport.java:18-26 | a Flow publisher becomes a Reactive Streams publisher; null raises a NullPointerException named "publisher"; a wrapper built by the opposite adapter is unwrapped to the object it holds, and any other object is wrapped once for the target protocol |
| AdapterSupport.ToFlowPublisher | core/src/main/java/proactive/core/AdapterSupport.java:28-36 | a Reactive Streams publisher becomes a Flow publisher; null raises a NullPointerException named "publisher"; a wrapper built by the opposite adapter is unwrapped to the object it holds, and any other object is wrapped once for the target protocol |
| AdapterSupport.ToSubscriber | core/src/main/java/proactive/core/AdapterSupport.java:38-46 | a Flow subscriber becomes a Reactive Streams subscriber; null raises a NullPointerException named "flowSubscriber"; a wrapper built by the opposite adapter is unwrapped to the object it holds, and any other object is wrapped once for the target protocol |
| AdapterSupport.ToFlowSubscriber | core/src/main/java/proactive/core/AdapterSupport.java:48-56 | a Reactive Streams subscriber becomes a Flow subscriber; null raises a NullPointerException named "subscriber"; a wrapper built by the opposite adapter is unwrapped to the object it holds, and any other object is wrapped once for the target protocol |
| AdapterSupport.ToSubscription | core/src/main/java/proactive/core/AdapterSupport.java:64-72 | a Flow subscription becomes a Reactive Streams subscription; null raises a NullPointerException named "flowSubscription"; a wrapper built by the opposite adapter is unwrapped to the object it holds, and any other object is wrapped once for the target protocol |
| AdapterSupport.ToFlowSubscription | core/src/main/java/proactive/core/AdapterSupport.java:80-88 | a Reactive Streams subscription becomes a Flow subscription; null raises a NullPointerException named "subscription"; a wrapper built by the opposite adapter is unwrapped to the object it holds, and any other object is wrapped once for the target protocol |
| AdapterSupport.ToSubscriptionConsumer | core/src/main/java/proactive/core/AdapterSupport.java:96-104 | a consumer of Flow subscriptions becomes one of Reactive Streams subscriptions; null gives null; a wrapper built by the opposite adapter is unwrapped to the object it holds, and any other object is wrapped once for the target protocol |
| AdapterSupport.ToFlowSubscriptionConsumer | core/src/main/java/proactive/core/AdapterSupport.java:106-114 | a consumer of Reactive Streams subscriptions becomes one of Flow subscriptions; null gives null; a wrapper built by the opposite adapter is unwrapped to the object it holds, and any other object is wrapped once for the target protocol |
| AdapterSupport.RoundTrip | core/src/main/java/proactive/core/AdapterSupport.java:18-114 | adapting to the other protocol and back returns the original object, for every shape and both directions |
| AdapterSupport.Bounce | core/src/main/java/proactive/core/AdapterSupport.java:18-114 | any number of alternating adaptations yields an object of the expected protocol with at most one wrapper layer |
| AdapterSupport.BounceParity | core/src/main/java/proactive/core/AdapterSupport.java:18-114 | an even number of alternating adaptations returns the original object; an odd number equals a single adaptation |
| AdapterSupport.Forward | core/src/main/java/proactive/core/AdapterSupport.java:120-279 | a wrapper makes one call, on its inner object, with the same method; a subscriber or subscription argument is replaced by exactly its adaptation to the inner protocol, other arguments are unchanged; a null object argument raises a NullPointerException naming the parameter of the adapter that was called |
| AdapterSupport.Receive | core/src/main/java/proactive/core/AdapterSupport.java:120-279 | a call on any object reaches a native object of matching protocol and shape, or raises a NullPointerException |
| AdapterSupport.ReceiveCanonical | core/src/main/java/proactive/core/AdapterSupport.java:120-279 | on a wrapper around a native object, the forwarded call is the only call made |
| AdapterSupport.SubscriptionForwarding | core/src/main/java/proactive/core/AdapterSupport.java:213-251 | request(n) reaches the wrapped subscription with n unchanged, and cancel() reaches it too |
| AdapterSupport.SubscriberForwarding | core/src/main/java/proactive/core/AdapterSupport.java:152-208 | onNext item, onError throwable and onComplete reach the wrapped subscriber unchanged |
| AdapterSupport.OnSubscribeForwarding | core/src/main/java/proactive/core/AdapterSupport.java:152-208 | onSubscribe hands the wrapped subscriber the adapted subscription, unwrapping a wrapper of the opposite direction |
| AdapterSupport.AcceptForwarding | core/src/main/java/proactive/core/AdapterSupport.java:253-279 | accept on a consumer wrapper hands the wrapped consumer the adapted subscription: the inner subscription when given a wrapper, a fresh wrapper when given a native one |
| AdapterSupport.SubscribeThroughBridge | core/src/main/java/proactive/core/AdapterSupport.java:120-145 | subscribing any subscriber, adapted, to an adapted publisher subscribes that same subscriber to the original publisher, with no wrapper added or left over |
| AdapterSupport.NullArgumentThrows | core/src/main/java/proactive/core/AdapterSupport.java:120-279 | a null subscriber or subscription passed to a publisher, subscriber or consumer wrapper raises a NullPointerException |
| Statement.NowBare | core/src/main/java/proactive/core/BaseStatement.java:16-18 | now() fails iff no driver is available, otherwise runs on the driver the default-driver lookup returns, leaving the registry as that lookup leaves it, and invokes no callback |
| Statement.Now | core/src/main/java/proactive/core/BaseStatement.java:29-31 | now with four callbacks fails iff no driver is available, otherwise runs on the driver the default-driver lookup returns, leaving the registry as that lookup leaves it; the next callback receives exactly the statement's values; the subscribe callback runs first iff given; the error callback runs last iff the statement fails and it is given, the complete callback iff the statement completes and it is given; nothing follows a terminal callback |
| Statement.Now1 | core/src/main/java/proactive/core/Statement.java:25-27 | now(next) is now(next, null, null, null), so only the next callback can run |
| Statement.Now2 | core/src/main/java/proactive/core/Statement.java:35-37 | now(next, error) is now(next, error, null, null), so neither complete nor subscribe callbacks run |
| Statement.Now3 | core/src/main/java/proactive/core/Statement.java:46-48 | now(next, error, complete) is now(next, error, complete, null), so the subscribe callback never runs |
| Statement.AfterBare | core/src/main/java/proactive/core/BaseStatement.java:34-37 | after(delay) behaves exactly as now(), whatever the delay |
| Statement.After | core/src/main/java/proactive/core/BaseStatement.java:40-43 | after(delay, four callbacks) behaves exactly as now with the same callbacks |
| Statement.After2 | core/src/main/java/proactive/core/Statement.java:74-76 | after(delay, next, error) behaves as now(next, error) |
| Statement.After3 | core/src/main/java/proactive/core/Statement.java:86-88 | after(delay, next, error, complete) behaves as now(next, error, complete) |
| Statement.NowBareIsNowWithoutCallbacks | core/src/main/java/proactive/core/BaseStatement.java:15-31 | now() observes what now with four null callbacks observes |
| Statement.ReexecutionIsIndependent | core/src/main/java/proactive/core/BaseStatement.java:15-31 | for every registry, executing a statement again gives the same outcome: the same driver and signals, or the same missing-driver failure |
| TheStatement.Build | core/src/main/java/proactive/statements/The.java:27-77 | a statement is built iff a driver is available, over the given context, by the driver that lookup returns |
| TheStatement.Value | core/src/main/java/proactive/statements/The.java:27-29 | value(v) emits v alone, then completes; it is built by the driver the default-driver lookup returns, and fails with the registry untouched when there is none |
| TheStatement.Series | core/src/main/java/proactive/statements/The.java:38-41 | series(vs...) emits the values in argument order, then completes; it is built by the driver the default-driver lookup returns, and fails with the registry untouched when there is none |
| TheStatement.Publisher | core/src/main/java/proactive/statements/The.java:61-63 | a statement over a Reactive Streams publisher emits what the publisher emits; it is built by the driver the default-driver lookup returns, and fails with the registry untouched when there is none |
| TheStatement.FlowPublisher | core/src/main/java/proactive/statements/The.java:50-52 | a statement over a Flow publisher emits what the publisher emits; it is built by the driver the default-driver lookup returns, and fails with the registry untouched when there is none |
| TheStatement.Get | core/src/main/java/proactive/statements/The.java:85-88 | get() returns the context fixed at construction |
| TheStatement.PublisherShapesAgree | core/src/main/java/proactive/statements/The.java:50-63 | both publisher factories give the same statement for the same emissions |
| TheStatement.DriverFixedAtConstruction | core/src/main/java/proactive/statements/The.java:27-88 | a later setDefaultDriver changes neither the statement's context nor the driver that built it |
| CheckStatement.That | core/src/main/java/proactive/statements/Check.java:22-24 | Check.that(s) checks the given statement |
| CheckStatement.MatchesOf | core/src/main/java/proactive/statements/Check.java:44-46 | matches(p) keeps the checked statement and uses p as the test |
| CheckStatement.Is | core/src/main/java/proactive/statements/Check.java:54-56 | is(v) passes exactly the values equal to v |
| CheckStatement.IsNot | core/src/main/java/proactive/statements/Check.java:64-66 | isNot(v) passes exactly the values different from v |
| CheckStatement.ThenOf | core/src/main/java/proactive/statements/Check.java:74-76 | then without matches, is or isNot tests truthiness |
| CheckStatement.ThenStatementOf | core/src/main/java/proactive/statements/Check.java:84-86 | then(statement) runs that statement for every passing value |
| CheckStatement.MatchesThenStatement | core/src/main/java/proactive/statements/Check.java:125-127 | Matches.then(statement) keeps the predicate and runs that statement for every passing value |
| CheckStatement.MatchesThen | core/src/main/java/proactive/statements/Check.java:115-117 | Matches.then(f) builds a statement that runs f on exactly the passing values |
| CheckStatement.OtherwiseOf | core/src/main/java/proactive/statements/Check.java:162-164 | otherwise(g) keeps the statement, test and then-branch; each value takes the then-branch when it passes and g when it fails |
| CheckStatement.OtherwiseStatementOf | core/src/main/java/proactive/statements/Check.java:172-174 | otherwise(statement) keeps the then-branch and runs that statement for every failing value |
| CheckStatement.ThenGet | core/src/main/java/proactive/statements/Check.java:180-187 | the output is the then-branch mapped over exactly the passing values, in order; with no passing value, no value and the upstream terminal |
| CheckStatement.OtherwiseGet | core/src/main/java/proactive/statements/Check.java:227-234 | each upstream value contributes the then-branch iff it passes and the otherwise-branch iff it fails, in order, ending as the upstream ends when no branch fails; the first failing branch ends the output with its error after everything before it, so the output completes only if the upstream and every branch complete |
| CheckStatement.ThenIsFlatMapOfFilter | core/src/main/java/proactive/statements/Check.java:180-187 | mapping failing values to empty equals mapping the then-branch over the filtered upstream |
| CheckStatement.NoMatchMapsToEmpty | core/src/main/java/proactive/statements/Check.java:180-187 | when no value passes, Then.get() emits nothing and ends as the upstream ends |
| CheckStatement.BranchExclusive | core/src/main/java/proactive/statements/Check.java:227-234 | with one upstream value, the output is the then-branch iff the predicate holds and the otherwise-branch iff it does not |
| CheckStatement.EmptyOtherwiseIsThen | core/src/main/java/proactive/statements/Check.java:180-234 | an otherwise-branch that emits nothing makes Otherwise.get() equal Then.get() |
| CheckStatement.OtherwiseSwap | core/src/main/java/proactive/statements/Check.java:227-234 | negating the predicate and swapping the branches changes nothing |
| CheckStatement.ThenStatementIsConstantFunction | core/src/main/java/proactive/statements/Check.java:74-86 | then(statement) and then(_ -> statement) run alike |
| CheckStatement.UpstreamErrorPropagates | core/src/main/java/proactive/statements/Check.java:227-234 | an upstream error becomes the output's terminal when no branch fails |
| CheckStatement.YesNoExample | core/src/main/java/proactive/statements/Check.java:22-234 | Check.that(value(5)).is(5).then(value("yes")).otherwise(value("no")) gives "yes", and gives "no" for 4 |
| CheckStatement.NoOtherwiseExample | core/src/main/java/proactive/statements/Check.java:22-187 | without an otherwise-branch, a failing check emits nothing and completes |
| CheckStatement.EveryValueIsCheckedExample | core/src/main/java/proactive/statements/Check.java:28-234 | every upstream value is checked, not only the first: series(5, 4) with is(5) gives "yes" then "no" |
| WaitStatement.Until | core/src/main/java/proactive/statements/Wait.java:32-34 | Wait.until(s) waits on the given statement |
| WaitStatement.MatchesOf | core/src/main/java/proactive/statements/Wait.java:52-54 | matches(p) keeps the requirement, and the built statement yields the requirement's first value passing p |
| WaitStatement.Is | core/src/main/java/proactive/statements/Wait.java:62-64 | is(v) waits for a value equal to v |
| WaitStatement.IsNot | core/src/main/java/proactive/statements/Wait.java:72-74 | isNot(v) waits for a value different from v |
| WaitStatement.WaitGet | core/src/main/java/proactive/statements/Wait.java:80-82 | Wait.get() emits the first truthy upstream value then completes, or nothing and the upstream terminal when none is truthy |
| WaitStatement.WaitUntilMatchesGet | core/src/main/java/proactive/statements/Wait.java:100-103 | the output is the first upstream value that passes, then completion; with no passing value, nothing and the upstream terminal |
| WaitStatement.UntilIsMatchesTruthy | core/src/main/java/proactive/statements/Wait.java:52-82 | the default wait equals matches(isTruthy) |
| WaitStatement.IsYieldsTheValue | core/src/main/java/proactive/statements/Wait.java:62-103 | is(v) emits v and completes iff the upstream emits v; otherwise nothing and the upstream terminal |
| WaitStatement.IsNotSkipsTheValue | core/src/main/java/proactive/statements/Wait.java:72-103 | isNot(v) skips the leading copies of v and emits the first other value; when every value is v, nothing |
| WaitStatement.AnythingIsFirst | core/src/main/java/proactive/statements/Wait.java:52-103 | waiting for a predicate every value satisfies equals first |
| WaitStatement.SeriesExample | core/src/main/java/proactive/statements/Wait.java:52-103 | waiting on 1, 2, 3, 4 for a value above 2 emits 3 alone, then completes |
| WaitStatement.NoMatchExample | core/src/main/java/proactive/statements/Wait.java:52-103 | waiting on 1, 2 for a value above 5 emits nothing and completes without error |
| TryStatement.Resolving | core/src/main/java/proactive/statements/Try.java:36-38 | Try.resolving(s).get() gives s's context |
| TryStatement.TryGet | core/src/main/java/proactive/statements/Try.java:57-60 | Try.get() is the resolved statement's own get() |
| TryStatement.TryThen | core/src/main/java/proactive/statements/Try.java:49-51 | then(f) consumes the resolved statement with f; an empty statement gives nothing and its terminal |
| TryStatement.ThenThen | core/src/main/java/proactive/statements/Try.java:72-74 | a chained then(f) consumes the previous stage's output with f; an empty upstream stays empty through the chain |
| TryStatement.TryThenStatement | core/src/main/java/proactive/statements/Try.java:53-55 | then(statement) consumes the resolved statement and runs that statement for every value |
| TryStatement.ThenGet | core/src/main/java/proactive/statements/Try.java:80-83 | the follow-ups' values are concatenated in upstream order and end as the upstream ends when all complete; an empty upstream gives nothing and its terminal; the first failing follow-up ends the output with its error after everything before it, so the output completes only if the upstream and every follow-up complete; an upstream error is never lost |
| TryStatement.ThenThenStatement | core/src/main/java/proactive/statements/Try.java:76-78 | a chained then(statement) consumes the previous stage's output |
| TryStatement.ResolvingIsTransparent | core/src/main/java/proactive/statements/Try.java:57-60 | Try.resolving(s).get() is s.get() |
| TryStatement.ChainAssociative | core/src/main/java/proactive/statements/Try.java:49-83 | chaining two stages equals one stage whose follow-up runs the second stage on the first's output |
| TryStatement.ThenJustIsIdentity | core/src/main/java/proactive/statements/Try.java:80-83 | a follow-up that re-emits its value leaves the statement unchanged |
| TryStatement.ThenStatementRepeats | core/src/main/java/proactive/statements/Try.java:53-83 | then(statement) emits the statement's values once per upstream value, so the length is count times statement length |
| TryStatement.TimesTenExample | core/src/main/java/proactive/statements/Try.java:16-20 | resolving series(1, 2, 3) then value(v * 10) emits 10, 20, 30 and completes |
| FirstStatement.Of | core/src/main/java/proactive/statements/First.java:39-41 | First.of(s) takes the given statement as its source, and its output is a prefix of the source's values |
| FirstStatement.FirstGet | core/src/main/java/proactive/statements/First.java:56-59 | at most one value, a prefix of the source, the source's first value when there is one, then completion; an empty source gives its terminal |
| FirstStatement.FirstOfFirst | core/src/main/java/proactive/statements/First.java:56-59 | First of First equals First |
| FirstStatement.OnlyTheHeadMatters | core/src/main/java/proactive/statements/First.java:56-59 | later values and the source's terminal make no difference once a value is sent |
| FirstStatement.SeriesExample | core/src/main/java/proactive/statements/First.java:20-59 | First.of(series(7, 8, 9)) emits 7 and completes |
| FirstStatement.EmptySourceCompletes | core/src/main/java/proactive/statements/First.java:12-59 | an empty source completes the statement with no value and no error |
| FirstStatement.EarlyErrorPropagates | core/src/main/java/proactive/statements/First.java:56-59 | a source that fails before any value makes the statement fail with the same error |

## Left out

- The Reactor 3 and RxJava 2 drivers are not part of this model. They are thin wrappers over library operators and disagree with each other, for example on `just(null)`. The driver operations are modelled from the interface's documented contract.
- The documented rule that a null `flatMap` mapper result becomes `empty()` is not modelled. Neither driver implements it, and branch functions here always return a trace.
- Threading, backpressure, demand and cancellation timing are left out. Streams are finite and synchronous, and `flatMap` is sequential concatenation.
- ServiceLoader mechanics are left out. Discovery is a fixed sequence of drivers, so `allDrivers()` has nothing further to model.
- Unsynchronised access to the registry slot is left out, because the model is sequential.
- `log` is left out. It is instrumentation and does not change the emitted values.
- The delay of `after` is left out, because the code does not schedule it.
- `toContext`, `toPublisher` and `toFlowPublisher` plumbing is left out. A publisher is represented by what it emits.
- `Util.defaultSubscriber` is left out. It returns null and nothing in the core uses it.
- Java reference identity, including `value != Boolean.FALSE`, is value equality. An adapter round trip gives back an equal object, not the same reference.
- `Context.java` is left out. It is an empty marker interface, represented by `Trace`.
- Statement.Now: each execution obtains its context with one `get()` call. The context is a parameter, so "exactly once" is not stated.
- Statement.Now: combinators consult the registry again inside `get()`. Lookup is modelled only at execution and at `The` construction, and `DriverRegistry.LookupIsStable` shows the later lookups return the same driver and change nothing.
- ProactiveDriver.Just: `just(null)` is modelled as one Null value. The backends differ here: the Reactor driver gives an empty context (`drivers/reactor3/src/main/java/proactive/reactor3/Reactor3ProactiveDriver.java:54-59`), the RxJava driver hands null to `Flowable.just`, which rejects it (`drivers/rxjava2/src/main/java/proactive/rxjava2/RxJava2ProactiveDriver.java:49-50`), and the Reactive Streams rules forbid a null `onNext`. No single behaviour is promised.
- AdapterSupport.Forward: a wrapper receiving a null `Throwable` or item passes it on unchanged. The model has no null throwable.

=== FILE: adapter_support.dfy ===
/**
 * The Reactive Streams <-> java.util.concurrent.Flow bridge (AdapterSupport).
 * The two protocols have the same four shapes of object; each adapter turns
 * an object of one protocol into one of the other, unwrapping a wrapper the
 * opposite adapter built instead of nesting a second wrapper around it, and
 * each wrapper forwards every call to the object it wraps.
 */
module AdapterSupport {
  import opened Wrappers
  import opened Util
  import opened Context

  /** The protocol an object belongs to: org.reactivestreams or java.util.concurrent.Flow. */
  datatype Side = ReactiveStreams | Flow

  function Opposite(s: Side): Side {
    if s == ReactiveStreams then Flow else ReactiveStreams
  }

  /** The shapes of object both protocols define, plus the `Consumer` of a subscription. */
  datatype Kind = Publisher | Subscriber | Subscription | SubscriptionConsumer

  /**
   * An object of one protocol: either a native object (one the adapters did not
   * build), or a wrapper on `side` around an object of the other protocol.
   */
  datatype Obj = Native(side: Side, kind: Kind, id: nat) | Wrapped(side: Side, inner: Obj)

  /** A wrapper has the shape of the object it wraps. */
  function KindOf(o: Obj): Kind {
    match o
    case Native(_, k, _) => k
    case Wrapped(_, i) => KindOf(i)
  }

  /** Java's field types: a wrapper always holds an object of the other protocol. */
  predicate WellFormed(o: Obj) {
    match o
    case Native(_, _, _) => true
    case Wrapped(s, i) => i.side == Opposite(s) && WellFormed(i)
  }

  /** A possibly-null reference of the given protocol and shape. */
  predicate IsA(x: Option<Obj>, side: Side, kind: Kind) {
    x.None? || (x.value.side == side && KindOf(x.value) == kind && WellFormed(x.value))
  }

  /** At most one layer of wrapping: a native object, or a wrapper around a native object. */
  predicate Canonical(o: Obj) {
    WellFormed(o) && (o.Wrapped? ==> o.inner.Native?)
  }

  /** The result of an adapter: a possibly-null reference, or a NullPointerException. */
  datatype Adapted = Adapted(obj: Option<Obj>) | NullPointer(message: string)

  /**
   * The common shape of the eight adapters, converting `x` to protocol `to`:
   * a null argument is refused (or, for subscription consumers, passed through
   * as null); a wrapper built by the opposite adapter gives back the object it
   * wraps; anything else gets a new wrapper.
   */
  function Adapt(to: Side, kind: Kind, x: Option<Obj>, name: string): (r: Adapted)
    requires IsA(x, Opposite(to), kind)
    ensures r.Adapted? ==> IsA(r.obj, to, kind)
    ensures r.Adapted? ==> (r.obj.None? <==> x.None?)
    ensures x.None? && kind == SubscriptionConsumer ==> r == Adapted(None)
    ensures x.None? && kind != SubscriptionConsumer ==> r == NullPointer(name)
    ensures x.Some? && x.value.Wrapped? ==> r == Adapted(Some(x.value.inner))
    ensures x.Some? && x.value.Native? ==> r == Adapted(Some(Wrapped(to, x.value)))
    ensures x.Some? && Canonical(x.value) ==> r.Adapted? && Canonical(r.obj.value)
  {
    if x.None? then
      if kind == SubscriptionConsumer then Adapted(None) else NullPointer(name)
    else if x.value.Wrapped? then
      Adapted(Some(x.value.inner))
    else
      Adapted(Some(Wrapped(to, x.value)))
  }

  /*** The eight adapters ***/

  /** `toPublisher(Flow.Publisher)`. */
  function ToPublisher(fp: Option<Obj>): (r: Adapted)
    requires IsA(fp, Flow, Publisher)
    ensures fp.None? <==> r == NullPointer("publisher")
    ensures r.Adapted? ==> IsA(r.obj, ReactiveStreams, Publisher)
    ensures fp.Some? && fp.value.Wrapped? ==> r == Adapted(Some(fp.value.inner))
    ensures fp.Some? && fp.value.Native? ==> r == Adapted(Some(Wrapped(ReactiveStreams, fp.value)))
  {
    Adapt(ReactiveStreams, Publisher, fp, "publisher")
  }

  /** `toFlowPublisher(Publisher)`. */
  function ToFlowPublisher(p: Option<Obj>): (r: Adapted)
    requires IsA(p, ReactiveStreams, Publisher)
    ensures p.None? <==> r == NullPointer("publisher")
    ensures r.Adapted? ==> IsA(r.obj, Flow, Publisher)
    ensures p.Some? && p.value.Wrapped? ==> r == Adapted(Some(p.value.inner))
    ensures p.Some? && p.value.Native? ==> r == Adapted(Some(Wrapped(Flow, p.value)))
  {
    Adapt(Flow, Publisher, p, "publisher")
  }

  /** `toSubscriber(Flow.Subscriber)`. */
  function ToSubscriber(fs: Option<Obj>): (r: Adapted)
    requires IsA(fs, Flow, Subscriber)
    ensures fs.None? <==> r == NullPointer("flowSubscriber")
    ensures r.Adapted? ==> IsA(r.obj, ReactiveStreams, Subscriber)
    ensures fs.Some? && fs.value.Wrapped? ==> r == Adapted(Some(fs.value.inner))
    ensures fs.Some? && fs.value.Native? ==> r == Adapted(Some(Wrapped(ReactiveStreams, fs.value)))
  {
    Adapt(ReactiveStreams, Subscriber, fs, "flowSubscriber")
  }

  /** `toFlowSubscriber(Subscriber)`. */
  function ToFlowSubscriber(s: Option<Obj>): (r: Adapted)
    requires IsA(s, ReactiveStreams, Subscriber)
    ensures s.None? <==> r == NullPointer("subscriber")
    ensures r.Adapted? ==> IsA(r.obj, Flow, Subscriber)
    ensures s.Some? && s.value.Wrapped? ==> r == Adapted(Some(s.value.inner))
    ensures s.Some? && s.value.Native? ==> r == Adapted(Some(Wrapped(Flow, s.value)))
  {
    Adapt(Flow, Subscriber, s, "subscriber")
  }

  /** `toSubscription(Flow.Subscription)`. */
  function ToSubscription(fs: Option<Obj>): (r: Adapted)
    requires IsA(fs, Flow, Subscription)
    ensures fs.None? <==> r == NullPointer("flowSubscription")
    ensures r.Adapted? ==> IsA(r.obj, ReactiveStreams, Subscription)
    ensures fs.Some? && fs.value.Wrapped? ==> r == Adapted(Some(fs.value.inner))
    ensures fs.Some? && fs.value.Native? ==> r == Adapted(Some(Wrapped(ReactiveStreams, fs.value)))
  {
    Adapt(ReactiveStreams, Subscription, fs, "flowSubscription")
  }

  /** `toFlowSubscription(Subscription)`. */
  function ToFlowSubscription(s: Option<Obj>): (r: Adapted)
    requires IsA(s, ReactiveStreams, Subscription)
    ensures s.None? <==> r == NullPointer("subscription")
    ensures r.Adapted? ==> IsA(r.obj, Flow, Subscription)
    ensures s.Some? && s.value.Wrapped? ==> r == Adapted(Some(s.value.inner))
    ensures s.Some? && s.value.Native? ==> r == Adapted(Some(Wrapped(Flow, s.value)))
  {
    Adapt(Flow, Subscription, s, "subscription")
  }

  /** `toSubscriptionConsumer(Consumer<Flow.Subscription>)`: null in, null out. */
  function ToSubscriptionConsumer(fc: Option<Obj>): (r: Adapted)
    requires IsA(fc, Flow, SubscriptionConsumer)
    ensures r.Adapted? && (r.obj.None? <==> fc.None?)
    ensures IsA(r.obj, ReactiveStreams, SubscriptionConsumer)
    ensures fc.Some? && fc.value.Wrapped? ==> r == Adapted(Some(fc.value.inner))
    ensures fc.Some? && fc.value.Native? ==> r == Adapted(Some(Wrapped(ReactiveStreams, fc.value)))
  {
    Adapt(ReactiveStreams, SubscriptionConsumer, fc, "flowSubscriptionConsumer")
  }

  /** `toFlowSubscriptionConsumer(Consumer<Subscription>)`: null in, null out. */
  function ToFlowSubscriptionConsumer(c: Option<Obj>): (r: Adapted)
    requires IsA(c, ReactiveStreams, SubscriptionConsumer)
    ensures r.Adapted? && (r.obj.None? <==> c.None?)
    ensures IsA(r.obj, Flow, SubscriptionConsumer)
    ensures c.Some? && c.value.Wrapped? ==> r == Adapted(Some(c.value.inner))
    ensures c.Some? && c.value.Native? ==> r == Adapted(Some(Wrapped(Flow, c.value)))
  {
    Adapt(Flow, SubscriptionConsumer, c, "subscriptionConsumer")
  }

  /*** Round trips ***/

  /**
   * Adapting to the other protocol and back gives the original reference,
   * whenever the first adaptation succeeds (every non-null argument, and a
   * null subscription consumer).
   */
  lemma RoundTrip(s: Side, kind: Kind, x: Option<Obj>)
    requires IsA(x, s, kind) && (x.Some? ==> Canonical(x.value))
    ensures Opposite(Opposite(s)) == s
    ensures var there := Adapt(Opposite(s), kind, x, "");
            there.Adapted? ==> Adapt(s, kind, there.obj, "") == Adapted(x)
    ensures x.Some? ==> Adapt(Opposite(s), kind, x, "").Adapted?
  {
  }

  /** Alternately adapting `n` times, starting from protocol `s` (`n` adapters applied). */
  function Bounce(s: Side, kind: Kind, x: Obj, n: nat): (r: Obj)
    requires IsA(Some(x), s, kind) && Canonical(x)
    ensures IsA(Some(r), if n % 2 == 0 then s else Opposite(s), kind) && Canonical(r)
    decreases n
  {
    if n == 0 then x
    else
      var y := Adapt(Opposite(s), kind, Some(x), "").obj.value;
      assert Opposite(Opposite(s)) == s;
      Bounce(Opposite(s), kind, y, n - 1)
  }

  /**
   * No layers accumulate: an even number of adaptations gives back the original
   * object, and an odd number gives the same object as a single adaptation.
   */
  lemma {:induction false} BounceParity(s: Side, kind: Kind, x: Obj, n: nat)
    requires IsA(Some(x), s, kind) && Canonical(x)
    ensures n % 2 == 0 ==> Bounce(s, kind, x, n) == x
    ensures n % 2 == 1 ==> Bounce(s, kind, x, n) == Adapt(Opposite(s), kind, Some(x), "").obj.value
    decreases n
  {
    if n >= 2 {
      var y := Adapt(Opposite(s), kind, Some(x), "").obj.value;
      assert Opposite(Opposite(s)) == s;
      RoundTrip(s, kind, Some(x));
      assert Bounce(s, kind, x, n) == Bounce(s, kind, x, n - 2);
      BounceParity(s, kind, x, n - 2);
    }
  }

  /*** Call forwarding ***/

  /** A Java `long`. */
  type Long = n: int | -0x8000_0000_0000_0000 <= n < 0x8000_0000_0000_0000

  /** A call on a protocol object; the method determines the shape of the receiver. */
  datatype Call =
    | Subscribe(subscriber: Option<Obj>)
    | OnSubscribe(subscription: Option<Obj>)
    | OnNext(item: Value)
    | OnError(error: Throwable)
    | OnComplete
    | Request(n: Long)
    | Cancel
    | Accept(acceptedSubscription: Option<Obj>)

  /** Whether `c` is a call an object of protocol `side` and shape `kind` accepts. */
  predicate Fits(c: Call, side: Side, kind: Kind) {
    match c
    case Subscribe(s) => kind == Publisher && IsA(s, side, Subscriber)
    case OnSubscribe(s) => kind == Subscriber && IsA(s, side, Subscription)
    case OnNext(_) => kind == Subscriber
    case OnError(_) => kind == Subscriber
    case OnComplete => kind == Subscriber
    case Request(_) => kind == Subscription
    case Cancel => kind == Subscription
    case Accept(s) => kind == SubscriptionConsumer && IsA(s, side, Subscription)
  }

  /** The effect of a call on a wrapper: one call on another object, or an exception. */
  datatype Forwarded = Delivered(target: Obj, call: Call) | Threw(message: string)

  /**
   * What a wrapper does with a call: it makes exactly one call, on the object it
   * wraps, with the same method. Object arguments (a subscriber, a subscription)
   * are adapted to the wrapped object's protocol; every other argument is passed
   * unchanged.
   */
  function Forward(w: Obj, c: Call): (r: Forwarded)
    requires w.Wrapped? && WellFormed(w) && Fits(c, w.side, KindOf(w))
    ensures r.Delivered? ==> r.target == w.inner && Fits(r.call, w.inner.side, KindOf(w.inner))
    ensures !(c.Subscribe? || c.OnSubscribe? || c.Accept?) ==> r == Delivered(w.inner, c)
    ensures c.Subscribe? ==> (r.Threw? <==> c.subscriber.None?) && (r.Delivered? ==> r.call.Subscribe?)
    ensures c.OnSubscribe? ==> (r.Threw? <==> c.subscription.None?) && (r.Delivered? ==> r.call.OnSubscribe?)
    ensures c.Accept? ==> (r.Threw? <==> c.acceptedSubscription.None?) && (r.Delivered? ==> r.call.Accept?)
    ensures c.Subscribe? && r.Delivered? ==>
              r.call.subscriber == Adapt(w.inner.side, Subscriber, c.subscriber, "").obj
    ensures c.OnSubscribe? && r.Delivered? ==>
              r.call.subscription == Adapt(w.inner.side, Subscription, c.subscription, "").obj
    ensures c.Accept? && r.Delivered? ==>
              r.call.acceptedSubscription == Adapt(w.inner.side, Subscription, c.acceptedSubscription, "").obj
    ensures c.Subscribe? && r.Threw? ==> r.message == (if w.inner.side == Flow then "subscriber" else "flowSubscriber")
    ensures (c.OnSubscribe? || c.Accept?) && r.Threw? ==>
              r.message == (if w.inner.side == Flow then "subscription" else "flowSubscription")
  {
    var to := w.inner.side;
    assert Opposite(to) == w.side;
    match c
    case Subscribe(s) =>
      (match Adapt(to, Subscriber, s, if to == Flow then "subscriber" else "flowSubscriber")
       case Adapted(a) => Delivered(w.inner, Subscribe(a))
       case NullPointer(m) => Threw(m))
    case OnSubscribe(s) =>
      (match Adapt(to, Subscription, s, if to == Flow then "subscription" else "flowSubscription")
       case Adapted(a) => Delivered(w.inner, OnSubscribe(a))
       case NullPointer(m) => Threw(m))
    case Accept(s) =>
      (match Adapt(to, Subscription, s, if to == Flow then "subscription" else "flowSubscription")
       case Adapted(a) => Delivered(w.inner, Accept(a))
       case NullPointer(m) => Threw(m))
    case _ => Delivered(w.inner, c)
  }

  /** Where a call made on `o` ends up: following wrappers down to a native object. */
  function Receive(o: Obj, c: Call): (r: Forwarded)
    requires WellFormed(o) && Fits(c, o.side, KindOf(o))
    ensures r.Delivered? ==> r.target.Native? && Fits(r.call, r.target.side, r.target.kind)
    decreases o
  {
    if o.Native? then Delivered(o, c)
    else
      match Forward(o, c)
      case Threw(m) => Threw(m)
      case Delivered(t, c') => Receive(t, c')
  }

  /** On a wrapper around a native object, the forwarded call is the only call made. */
  lemma ReceiveCanonical(o: Obj, c: Call)
    requires Canonical(o) && o.Wrapped? && Fits(c, o.side, KindOf(o))
    ensures Receive(o, c) == Forward(o, c)
  {
  }

  /** `request(n)` and `cancel()` reach the wrapped subscription unchanged. */
  lemma SubscriptionForwarding(w: Obj, n: Long)
    requires Canonical(w) && w.Wrapped? && KindOf(w) == Subscription
    ensures Receive(w, Request(n)) == Delivered(w.inner, Request(n))
    ensures Receive(w, Cancel) == Delivered(w.inner, Cancel)
  {
  }

  /** `onNext`, `onError` and `onComplete` reach the wrapped subscriber unchanged. */
  lemma SubscriberForwarding(w: Obj, item: Value, e: Throwable)
    requires Canonical(w) && w.Wrapped? && KindOf(w) == Subscriber
    ensures Receive(w, OnNext(item)) == Delivered(w.inner, OnNext(item))
    ensures Receive(w, OnError(e)) == Delivered(w.inner, OnError(e))
    ensures Receive(w, OnComplete) == Delivered(w.inner, OnComplete)
  {
  }

  /**
   * `onSubscribe` on a subscriber wrapper hands the wrapped subscriber the
   * adapted subscription; when the subscription is itself a wrapper around a
   * subscription of the subscriber's protocol, that subscription is handed over.
   */
  lemma OnSubscribeForwarding(w: Obj, sub: Obj)
    requires Canonical(w) && w.Wrapped? && KindOf(w) == Subscriber
    requires IsA(Some(sub), w.side, Subscription) && Canonical(sub)
    ensures var inner := Adapt(w.inner.side, Subscription, Some(sub), "").obj;
            Receive(w, OnSubscribe(Some(sub))) == Delivered(w.inner, OnSubscribe(inner))
    ensures sub.Wrapped? ==> Receive(w, OnSubscribe(Some(sub))) == Delivered(w.inner, OnSubscribe(Some(sub.inner)))
  {
  }

  /**
   * `accept` on a consumer wrapper hands the wrapped consumer the adapted
   * subscription, and that is the only call made.
   */
  lemma AcceptForwarding(w: Obj, sub: Obj)
    requires Canonical(w) && w.Wrapped? && KindOf(w) == SubscriptionConsumer
    requires IsA(Some(sub), w.side, Subscription) && Canonical(sub)
    ensures Receive(w, Accept(Some(sub))) ==
            Delivered(w.inner, Accept(Adapt(w.inner.side, Subscription, Some(sub), "").obj))
    ensures sub.Wrapped? ==> Receive(w, Accept(Some(sub))) == Delivered(w.inner, Accept(Some(sub.inner)))
    ensures sub.Native? ==> Receive(w, Accept(Some(sub))) == Delivered(w.inner, Accept(Some(Wrapped(w.inner.side, sub))))
  {
  }

  /**
   * Subscribing through a bridge: a native publisher adapted to the other
   * protocol, and any subscriber of the publisher's protocol adapted the same
   * way. The subscribe call reaches the original publisher with the original
   * subscriber, with no extra wrapper in between.
   */
  lemma SubscribeThroughBridge(p: Obj, s: Obj)
    requires p.Native? && p.kind == Publisher
    requires IsA(Some(s), p.side, Subscriber) && Canonical(s)
    ensures var rp := Adapt(Opposite(p.side), Publisher, Some(p), "").obj.value;
            var rs := Adapt(Opposite(p.side), Subscriber, Some(s), "").obj.value;
            Receive(rp, Subscribe(Some(rs))) == Delivered(p, Subscribe(Some(s)))
  {
    assert Opposite(Opposite(p.side)) == p.side;
  }

  /** A null subscriber or subscription passed to a wrapper raises a NullPointerException. */
  lemma NullArgumentThrows(w: Obj, c: Call)
    requires Canonical(w) && w.Wrapped? && Fits(c, w.side, KindOf(w))
    requires c == Subscribe(None) || c == OnSubscribe(None) || c == Accept(None)
    ensures Receive(w, c).Threw?
  {
  }
}

=== FILE: check.dfy ===
/**
 * `Check` (proactive.statements.Check): a per-value conditional. Every value
 * of the checked statement is checked against the predicate; a passing value runs the then-branch,
 * a failing one runs the otherwise-branch, or contributes nothing when there
 * is none. Branches are functions from the checked value to a trace.
 */
module CheckStatement {
  import opened Util
  import opened Context
  import opened ProactiveDriver

  datatype Check = Check(value: Trace<Value>)

  datatype Matches = Matches(value: Trace<Value>, test: Value -> bool)

  datatype Then<O> = Then(value: Trace<Value>, test: Value -> bool, thenBranch: Value -> Trace<O>)

  datatype Otherwise<O> = Otherwise(
    value: Trace<Value>,
    test: Value -> bool,
    thenBranch: Value -> Trace<O>,
    otherwiseBranch: Value -> Trace<O>)

  /*** Building a check ***/

  /** `Check.that(statement)`. */
  function That(s: Trace<Value>): (c: Check)
    ensures c.value == s
  {
    Check(s)
  }

  /** `matches(predicate)`. */
  function MatchesOf(c: Check, p: Value -> bool): (m: Matches)
    ensures m.value == c.value && m.test == p
  {
    Matches(c.value, p)
  }

  /** `is(v)`: passes exactly the values equal to `v`. */
  function Is(c: Check, v: Value): (m: Matches)
    ensures m.value == c.value
    ensures forall x :: m.test(x) <==> x == v
  {
    Matches(c.value, x => AreEqual(x, v))
  }

  /** `isNot(v)`: passes exactly the values different from `v`. */
  function IsNot(c: Check, v: Value): (m: Matches)
    ensures m.value == c.value
    ensures forall x :: m.test(x) <==> x != v
  {
    Matches(c.value, x => !AreEqual(x, v))
  }

  /** `then(function)` without a predicate: the truthy values pass. */
  function ThenOf<O>(c: Check, f: Value -> Trace<O>): (t: Then<O>)
    ensures t.value == c.value && t.thenBranch == f
    ensures forall x :: t.test(x) <==> x != Null && x != Bool(false)
  {
    Then(c.value, IsTruthy, f)
  }

  /** `then(statement)` is `then(_ -> statement)`. */
  function ThenStatementOf<O>(c: Check, s: Trace<O>): (t: Then<O>)
    ensures t.value == c.value && t.test == ThenOf(c, x => s).test
    ensures forall x :: t.thenBranch(x) == s
  {
    ThenOf(c, x => s)
  }

  /** `Matches.then(function)`: the built statement runs `f` on exactly the values that pass. */
  function MatchesThen<O>(m: Matches, f: Value -> Trace<O>): (t: Then<O>)
    ensures t.value == m.value && t.test == m.test && t.thenBranch == f
    ensures ThenGet(t) == FlatMap(Filter(m.value, m.test), f)
  {
    Then(m.value, m.test, f)
  }

  /** `Matches.then(statement)` is `then(_ -> statement)`. */
  function MatchesThenStatement<O>(m: Matches, s: Trace<O>): (t: Then<O>)
    ensures t.value == m.value && t.test == m.test
    ensures forall x :: t.thenBranch(x) == s
  {
    MatchesThen(m, x => s)
  }

  /** `Then.otherwise(function)`: a failing value now runs `g`; a passing one still runs the then-branch. */
  function OtherwiseOf<O>(t: Then<O>, g: Value -> Trace<O>): (o: Otherwise<O>)
    ensures o.value == t.value && o.test == t.test && o.thenBranch == t.thenBranch && o.otherwiseBranch == g
    ensures forall x :: Branch(o, x) == if t.test(x) then t.thenBranch(x) else g(x)
  {
    Otherwise(t.value, t.test, t.thenBranch, g)
  }

  /** `Then.otherwise(statement)` is `otherwise(_ -> statement)`. */
  function OtherwiseStatementOf<O>(t: Then<O>, s: Trace<O>): (o: Otherwise<O>)
    ensures o.value == t.value && o.test == t.test && o.thenBranch == t.thenBranch
    ensures forall x :: o.otherwiseBranch(x) == s
  {
    OtherwiseOf(t, x => s)
  }

  /*** Running a check ***/

  /** The mapper `Then.get()` hands to `flatMap`: the then-branch for a passing value, `empty()` otherwise. */
  function ThenMapper<O>(t: Then<O>): Value -> Trace<O> {
    x => if t.test(x) then t.thenBranch(x) else Empty()
  }

  /**
   * `Then.get()`: for each upstream value in order, the then-branch when the
   * predicate holds and nothing otherwise; that is, the then-branch mapped
   * over the passing values only.
   */
  function ThenGet<O>(t: Then<O>): (r: Trace<O>)
    ensures r == FlatMap(Filter(t.value, t.test), t.thenBranch)
    ensures NoMatch(t.value.values, t.test) ==> r == Trace([], t.value.end)
  {
    ThenIsFlatMapOfFilter(t.value, t.test, t.thenBranch, ThenMapper(t));
    NoMatchMapsToEmpty(t.value, t.test, t.thenBranch, ThenMapper(t));
    FlatMap(t.value, ThenMapper(t))
  }

  /** The per-value branch of an `Otherwise`: then when the predicate holds, otherwise when it does not. */
  function Branch<O>(o: Otherwise<O>, x: Value): Trace<O> {
    if o.test(x) then o.thenBranch(x) else o.otherwiseBranch(x)
  }

  /** The mapper `Otherwise.get()` hands to `flatMap`. */
  function OtherwiseMapper<O>(o: Otherwise<O>): Value -> Trace<O> {
    x => Branch(o, x)
  }

  /**
   * `Otherwise.get()`: each upstream value contributes exactly one branch,
   * the then-branch when the predicate holds and the otherwise-branch when it
   * does not, in upstream order. Unless a branch fails, the output ends as
   * the upstream ends; the first failing branch ends it with that branch's error.
   */
  function OtherwiseGet<O>(o: Otherwise<O>): (r: Trace<O>)
    ensures AllComplete(o.value.values, OtherwiseMapper(o)) ==>
              r.end == o.value.end &&
              r.values == Flatten(seq(|o.value.values|, i requires 0 <= i < |o.value.values| =>
                            var x := o.value.values[i];
                            if o.test(x) then o.thenBranch(x).values else o.otherwiseBranch(x).values))
    ensures r.end == Complete ==> o.value.end == Complete && AllComplete(o.value.values, OtherwiseMapper(o))
    ensures forall k :: 0 <= k < |o.value.values| && Branch(o, o.value.values[k]).end.Error? &&
                        AllComplete(o.value.values[..k], OtherwiseMapper(o)) ==>
              r == Trace(Flatten(Outputs(o.value.values[..k], OtherwiseMapper(o))) + Branch(o, o.value.values[k]).values,
                         Branch(o, o.value.values[k]).end)
    ensures r == FlatMap(o.value, OtherwiseMapper(o))
  {
    FlatMapOutcome(o.value, OtherwiseMapper(o));
    assert Outputs(o.value.values, OtherwiseMapper(o)) ==
           seq(|o.value.values|, i requires 0 <= i < |o.value.values| =>
             var x := o.value.values[i];
             if o.test(x) then o.thenBranch(x).values else o.otherwiseBranch(x).values);
    FlatMap(o.value, OtherwiseMapper(o))
  }

  /*** Lemmas ***/

  lemma {:induction false} ThenIsFlatMapOfFilter<O>(u: Trace<Value>, p: Value -> bool, f: Value -> Trace<O>,
                                                   m: Value -> Trace<O>)
    requires forall x :: m(x) == if p(x) then f(x) else Empty()
    ensures FlatMap(u, m) == FlatMap(Filter(u, p), f)
    decreases |u.values|
  {
    if u.values != [] {
      var v := u.values[0];
      var tail := Trace(u.values[1..], u.end);
      ThenIsFlatMapOfFilter(tail, p, f, m);
      var rest := FlatMap(tail, m);
      assert FilterValues(u.values, p) == (if p(v) then [v] else []) + FilterValues(tail.values, p);
      if p(v) {
        var filtered := Filter(u, p);
        assert filtered.values[0] == v;
        assert Trace(filtered.values[1..], filtered.end) == Filter(tail, p);
        if f(v).end.Complete? {
          assert FlatMap(u, m) == Trace(f(v).values + rest.values, rest.end);
          assert FlatMap(filtered, f) == Trace(f(v).values + rest.values, rest.end);
        }
      } else {
        assert m(v) == Empty();
        assert FlatMap(u, m) == Trace([] + rest.values, rest.end);
        assert [] + rest.values == rest.values;
        assert Filter(u, p) == Filter(tail, p);
      }
    }
  }

  lemma NoMatchMapsToEmpty<O>(u: Trace<Value>, p: Value -> bool, f: Value -> Trace<O>, m: Value -> Trace<O>)
    requires forall x :: m(x) == if p(x) then f(x) else Empty()
    ensures NoMatch(u.values, p) ==> FlatMap(u, m) == Trace([], u.end)
  {
    if NoMatch(u.values, p) {
      EmptyAnnihilates(u, f);
      FlatMapCongruence(u, m, x => Empty<O>());
    }
  }

  /** With one upstream value, exactly one branch runs: then iff the predicate holds. */
  lemma BranchExclusive<O>(o: Otherwise<O>, v: Value)
    requires o.value == Just(v)
    ensures OtherwiseGet(o) == if o.test(v) then o.thenBranch(v) else o.otherwiseBranch(v)
  {
    JustLeftIdentity(v, OtherwiseMapper(o));
  }

  /** An otherwise-branch that produces nothing makes `Otherwise` behave as `Then`. */
  lemma EmptyOtherwiseIsThen<O>(t: Then<O>)
    ensures OtherwiseGet(OtherwiseOf(t, x => Empty())) == ThenGet(t)
  {
    var o := OtherwiseOf(t, x => Empty());
    FlatMapCongruence(t.value, OtherwiseMapper(o), ThenMapper(t));
  }

  /** Swapping the branches and negating the predicate changes nothing. */
  lemma OtherwiseSwap<O>(o: Otherwise<O>)
    ensures OtherwiseGet(o) == OtherwiseGet(Otherwise(o.value, x => !o.test(x), o.otherwiseBranch, o.thenBranch))
  {
    var swapped := Otherwise(o.value, x => !o.test(x), o.otherwiseBranch, o.thenBranch);
    FlatMapCongruence(o.value, OtherwiseMapper(o), OtherwiseMapper(swapped));
  }

  /** `then(statement)` and `then(_ -> statement)` run alike. */
  lemma ThenStatementIsConstantFunction<O>(c: Check, s: Trace<O>)
    ensures ThenGet(ThenStatementOf(c, s)) == ThenGet(ThenOf(c, x => s))
  {
  }

  /** An upstream error ends the output when no branch fails first; no value follows it. */
  lemma UpstreamErrorPropagates<O>(o: Otherwise<O>, e: Throwable)
    requires o.value.end == Error(e)
    requires AllComplete(o.value.values, OtherwiseMapper(o))
    ensures OtherwiseGet(o).end == Error(e)
  {
  }

  /** `Check.that(value(5)).is(5).then(value("yes")).otherwise(value("no"))` gives "yes", and "no" for 4. */
  lemma YesNoExample()
    ensures var run := (n: int) =>
              OtherwiseGet(OtherwiseStatementOf(MatchesThenStatement(Is(That(Just(Other(n))), Other(5)), Just("yes")), Just("no")));
            run(5) == Just("yes") && run(4) == Just("no")
  {
    BranchExclusive(OtherwiseStatementOf(MatchesThenStatement(Is(That(Just(Other(5))), Other(5)), Just("yes")), Just("no")), Other(5));
    BranchExclusive(OtherwiseStatementOf(MatchesThenStatement(Is(That(Just(Other(4))), Other(5)), Just("yes")), Just("no")), Other(4));
  }

  /** Without an otherwise-branch, a failing check gives no value and completes. */
  lemma NoOtherwiseExample()
    ensures ThenGet(MatchesThenStatement(Is(That(Just(Other(4))), Other(5)), Just("yes"))) == Empty()
  {
    var t := MatchesThenStatement(Is(That(Just(Other(4))), Other(5)), Just("yes"));
    assert NoMatch(t.value.values, t.test);
  }

  /**
   * Every upstream value is checked against the predicate, not only the first:
   * `Check.that(series(5, 4)).is(5).then(value("yes")).otherwise(value("no"))` gives "yes" then "no".
   */
  lemma EveryValueIsCheckedExample()
    ensures OtherwiseGet(OtherwiseStatementOf(MatchesThenStatement(Is(That(JustAll([Other(5), Other(4)])), Other(5)),
                                                                   Just("yes")), Just("no")))
            == JustAll(["yes", "no"])
  {
    var m := Is(That(JustAll([Other(5), Other(4)])), Other(5));
    var t := MatchesThenStatement(m, Just("yes"));
    var o := OtherwiseStatementOf(t, Just("no"));
    assert o.value == JustAll([Other(5), Other(4)]);
    assert o.test(Other(5)) && !o.test(Other(4));
    assert o.thenBranch(Other(5)) == Just("yes") && o.otherwiseBranch(Other(4)) == Just("no");
    var f := OtherwiseMapper(o);
    assert f(Other(5)) == Just("yes") && f(Other(4)) == Just("no");
    assert o.value.values[1..] == [Other(4)];
    assert FlatMap(Trace([Other(4)], Complete), f) == Just("no");
    assert FlatMap(o.value, f) == Trace(["yes"] + ["no"], Complete);
  }
}

=== FILE: context.dfy ===
/**
 * A Context (proactive.core.Context) observed over a finite, sequential run:
 * the values it emits, in order, followed by exactly one terminal signal.
 * Because the terminal is a single field after the values, "at most one
 * terminal signal, and no value after it" holds of every trace by construction.
 */
module Context {

  /** The payload of an asynchronous error; it is forwarded, never translated. */
  datatype Throwable = Throwable(message: string)

  datatype Terminal = Complete | Error(cause: Throwable)

  datatype Trace<T> = Trace(values: seq<T>, end: Terminal)

  /** Concatenation of a sequence of value runs, in order. */
  function Flatten<T>(ss: seq<seq<T>>): seq<T>
    decreases |ss|
  {
    if ss == [] then [] else ss[0] + Flatten(ss[1..])
  }
}

=== FILE: driver_registry.dfy ===
/**
 * The process-wide driver registry (ProactiveDriver.Find): one slot holding
 * the active driver, filled either explicitly or by caching the first driver
 * that service discovery finds. Every operation threads the registry state.
 */
module DriverRegistry {
  import opened Wrappers

  /** A backend implementation, identified by a token. */
  datatype Driver = Driver(id: nat)

  /**
   * The registry: the slot (`None` is `null`) and the drivers that service
   * discovery would list, in discovery order. Discovery is fixed for a run.
   */
  datatype Registry = Registry(slot: Option<Driver>, discovered: seq<Driver>)

  /** The outcome of `defaultDriver()`: a driver, or an IllegalStateException. */
  datatype Lookup = Found(driver: Driver, after: Registry) | Unavailable(after: Registry)

  /** Whether some driver can be obtained at all, from the slot or by discovery. */
  predicate Available(r: Registry) {
    r.slot.Some? || |r.discovered| > 0
  }

  /**
   * `findDefaultDriver()`: when the slot is empty, stores the first discovered
   * driver, if any; returns the slot's content.
   */
  function FindDefaultDriver(r: Registry): (res: (Option<Driver>, Registry))
    ensures res.1.discovered == r.discovered
    ensures res.0 == res.1.slot
    ensures res.0.Some? <==> Available(r)
    ensures r.slot.Some? ==> res == (r.slot, r)
    ensures r.slot.None? && |r.discovered| > 0 ==> res.0 == Some(r.discovered[0])
    ensures !Available(r) ==> res.1 == r
  {
    if r.slot.None? && |r.discovered| > 0 then
      var r' := r.(slot := Some(r.discovered[0]));
      (r'.slot, r')
    else
      (r.slot, r)
  }

  /** `hasDefaultDriver()`: whether `findDefaultDriver()` yields a driver, with its caching. */
  function HasDefaultDriver(r: Registry): (res: (bool, Registry))
    ensures res.0 <==> Available(r)
  {
    var (d, r') := FindDefaultDriver(r);
    (d.Some?, r')
  }

  /**
   * `defaultDriver()`: the slot's driver; when the slot is empty, the first
   * discovered driver, cached in the slot; IllegalStateException when neither exists.
   */
  function DefaultDriver(r: Registry): (res: Lookup)
    ensures res.Found? <==> Available(r)
    ensures res.after.discovered == r.discovered
    ensures res.Found? ==> res.after.slot == Some(res.driver)
    ensures r.slot.Some? ==> res == Found(r.slot.value, r)
    ensures res.Unavailable? ==> res.after == r
  {
    if r.slot.None? then
      var (_, r') := FindDefaultDriver(r);
      if r'.slot.None? then Unavailable(r') else Found(r'.slot.value, r')
    else
      Found(r.slot.value, r)
  }

  /** `setDefaultDriver(driver)`: overwrites the slot; `None` clears it. */
  function SetDefaultDriver(r: Registry, d: Option<Driver>): (r': Registry)
    ensures r'.slot == d && r'.discovered == r.discovered
  {
    r.(slot := d)
  }

  /*** Properties of the registry ***/

  /** With the slot empty, lookup caches the first discovered driver. */
  lemma LookupDiscovers(r: Registry)
    requires r.slot.None? && |r.discovered| > 0
    ensures DefaultDriver(r) == Found(r.discovered[0], r.(slot := Some(r.discovered[0])))
  {
  }

  /** After a successful lookup, every later lookup returns the same driver and changes nothing. */
  lemma LookupIsStable(r: Registry)
    requires DefaultDriver(r).Found?
    ensures var l := DefaultDriver(r);
            DefaultDriver(l.after) == l
  {
  }

  /** With nothing set and nothing discovered, lookup fails and the slot stays empty. */
  lemma LookupFailsWhenNothingFound(r: Registry)
    requires r.slot.None? && r.discovered == []
    ensures DefaultDriver(r) == Unavailable(r)
    ensures DefaultDriver(r).after.slot.None?
  {
  }

  /** An explicitly set driver wins over whatever discovery would pick. */
  lemma SetOverridesDiscovery(r: Registry, d: Driver)
    ensures DefaultDriver(SetDefaultDriver(r, Some(d))).Found?
    ensures DefaultDriver(SetDefaultDriver(r, Some(d))).driver == d
  {
  }

  /** Clearing the slot makes the next lookup run discovery again. */
  lemma ClearForcesRediscovery(r: Registry)
    ensures var l := DefaultDriver(SetDefaultDriver(r, None));
            if |r.discovered| > 0 then l.Found? && l.driver == r.discovered[0]
            else l.Unavailable?
  {
  }

  /** `hasDefaultDriver()` answers whether lookup would succeed and caches exactly as lookup does. */
  lemma HasDefaultDriverAgreesWithLookup(r: Registry)
    ensures HasDefaultDriver(r).0 <==> DefaultDriver(r).Found?
    ensures HasDefaultDriver(r).1 == DefaultDriver(r).after
  {
  }

  /*** The registry as a state machine ***/

  /** The calls a program can make on the registry. */
  datatype Op = GetDriver | HasDriver | SetDriver(driver: Option<Driver>)

  /** The registry after one call. */
  function Step(r: Registry, op: Op): (r': Registry)
    ensures r'.discovered == r.discovered
  {
    match op
    case GetDriver => DefaultDriver(r).after
    case HasDriver => HasDefaultDriver(r).1
    case SetDriver(d) => SetDefaultDriver(r, d)
  }

  /** The registry after a sequence of calls. */
  function Run(r: Registry, ops: seq<Op>): (r': Registry)
    ensures r'.discovered == r.discovered
    decreases |ops|
  {
    if ops == [] then r else Run(Step(r, ops[0]), ops[1..])
  }

  /** The drivers an explicit `setDefaultDriver` in `ops` put in the slot. */
  function ExplicitlySet(ops: seq<Op>): set<Driver>
    decreases |ops|
  {
    if ops == [] then {}
    else (if ops[0].SetDriver? && ops[0].driver.Some? then {ops[0].driver.value} else {}) + ExplicitlySet(ops[1..])
  }

  /**
   * Whatever calls are made, the slot ends up holding the driver it started
   * with, the first discovered driver, or a driver that was explicitly set.
   */
  lemma {:induction false} SlotOrigin(r: Registry, ops: seq<Op>)
    ensures var r' := Run(r, ops);
            r'.slot.Some? ==>
              r'.slot == r.slot || (|r.discovered| > 0 && r'.slot.value == r.discovered[0]) || r'.slot.value in ExplicitlySet(ops)
    decreases |ops|
  {
    if ops != [] {
      var s := Step(r, ops[0]);
      SlotOrigin(s, ops[1..]);
    }
  }
}

=== FILE: first.dfy ===
/**
 * `First` (proactive.statements.First): passes on only the first value of its
 * source, then completes; a source without values ends the statement as the
 * source ends.
 */
module FirstStatement {
  import opened Context
  import opened ProactiveDriver

  datatype First<O> = First(source: Trace<O>)

  /** `First.of(statement)`. */
  function Of<O>(s: Trace<O>): (f: First<O>)
    ensures f.source == s
    ensures FirstGet(f).values <= s.values
  {
    First(s)
  }

  /**
   * `First.get()`: the source's first value followed by completion, so later
   * values and the source's own terminal are dropped; an empty source gives
   * its terminal alone.
   */
  function FirstGet<O>(f: First<O>): (r: Trace<O>)
    ensures |r.values| <= 1 && r.values <= f.source.values
    ensures r.values == [] <==> f.source.values == []
    ensures r.values != [] ==> r.values[0] == f.source.values[0] && r.end == Complete
    ensures r.values == [] ==> r.end == f.source.end
  {
    ProactiveDriver.First(f.source)
  }

  /*** Lemmas ***/

  /** Taking the first value twice is taking it once. */
  lemma FirstOfFirst<O>(s: Trace<O>)
    ensures FirstGet(Of(FirstGet(Of(s)))) == FirstGet(Of(s))
  {
    FirstIdempotent(s);
  }

  /** Values after the first make no difference, nor does how the source ends once a value was sent. */
  lemma OnlyTheHeadMatters<O>(v: O, rest: seq<O>, end: Terminal)
    ensures FirstGet(Of(Trace([v] + rest, end))) == Just(v)
  {
  }

  /** `First.of(series(7, 8, 9))` gives 7 and completes. */
  lemma SeriesExample()
    ensures FirstGet(Of(JustAll([7, 8, 9]))) == Just(7)
  {
  }

  /** An empty source completes the statement without a value: not an error. */
  lemma EmptySourceCompletes<O>()
    ensures FirstGet(Of(Empty<O>())) == Empty<O>()
  {
  }

  /** A source that fails before any value makes the statement fail the same way. */
  lemma EarlyErrorPropagates<O>(e: Throwable)
    ensures FirstGet(Of<O>(Trace([], Error(e)))) == Trace([], Error(e))
  {
  }
}

=== FILE: proactive_driver.dfy ===
/**
 * The driver algebra (proactive.core.ProactiveDriver): the operations every
 * backend provides over Contexts, written as pure functions on finite traces
 * as the interface documents them, and the delivery of a trace to the
 * callbacks of `subscribe`.
 */
module ProactiveDriver {
  import opened Wrappers
  import opened Context

  /** `empty()`: completes at once with no value. */
  function Empty<T>(): (r: Trace<T>)
    ensures r.values == [] && r.end == Complete
  {
    Trace([], Complete)
  }

  /** `just(value)`: the one value, then completion. */
  function Just<T>(v: T): (r: Trace<T>)
    ensures r.values == [v] && r.end == Complete
  {
    Trace([v], Complete)
  }

  /** `just(values...)`: every value in argument order, then completion. */
  function JustAll<T>(vs: seq<T>): (r: Trace<T>)
    ensures r.values == vs && r.end == Complete
  {
    Trace(vs, Complete)
  }

  /** The values of `s` that satisfy `p`, in their original order. */
  function FilterValues<T(!new)>(s: seq<T>, p: T -> bool): (r: seq<T>)
    ensures |r| <= |s|
    ensures forall x :: multiset(r)[x] == if p(x) then multiset(s)[x] else 0
    decreases |s|
  {
    if s == [] then []
    else
      assert s == [s[0]] + s[1..];
      (if p(s[0]) then [s[0]] else []) + FilterValues(s[1..], p)
  }

  /** `filter`: only the values matching `p` pass; the terminal passes unchanged. */
  function Filter<T(!new)>(t: Trace<T>, p: T -> bool): (r: Trace<T>)
    ensures r.end == t.end
    ensures |r.values| <= |t.values|
    ensures forall v :: v in r.values <==> v in t.values && p(v)
  {
    var r := Trace(FilterValues(t.values, p), t.end);
    assert forall v :: v in r.values <==> multiset(r.values)[v] > 0;
    assert forall v :: v in t.values <==> multiset(t.values)[v] > 0;
    assert multiset(r.values) <= multiset(t.values);
    r
  }

  /** Linear search: the index of the first value satisfying `p`, or `|vs|` when none does. */
  function IndexOfFirst<T>(vs: seq<T>, p: T -> bool): (i: nat)
    ensures i <= |vs|
    ensures forall j :: 0 <= j < i ==> !p(vs[j])
    ensures i < |vs| ==> p(vs[i])
    decreases |vs|
  {
    if vs == [] || p(vs[0]) then 0
    else
      var k := IndexOfFirst(vs[1..], p);
      assert forall j :: 1 <= j < 1 + k ==> vs[j] == vs[1..][j - 1];
      1 + k
  }

  predicate NoMatch<T>(vs: seq<T>, p: T -> bool) {
    forall j :: 0 <= j < |vs| ==> !p(vs[j])
  }

  ghost predicate IsFirstMatch<T>(vs: seq<T>, p: T -> bool, i: int) {
    0 <= i < |vs| && p(vs[i]) && forall j :: 0 <= j < i ==> !p(vs[j])
  }

  /**
   * The result `find` promises: when no value matches, no value and the
   * upstream terminal; otherwise exactly the first matching value, then completion.
   */
  ghost predicate FindsFirst<T>(t: Trace<T>, p: T -> bool, r: Trace<T>) {
    if NoMatch(t.values, p) then r == Trace([], t.end)
    else exists i :: IsFirstMatch(t.values, p, i) && r == Trace([t.values[i]], Complete)
  }

  /** `find`: the first value matching `p`, then completion; no match is not an error. */
  function Find<T>(t: Trace<T>, p: T -> bool): (r: Trace<T>)
    ensures FindsFirst(t, p, r)
    ensures |r.values| <= 1 && (r.values != [] ==> p(r.values[0]) && r.end == Complete)
  {
    var i := IndexOfFirst(t.values, p);
    if i < |t.values| then
      assert IsFirstMatch(t.values, p, i);
      Trace([t.values[i]], Complete)
    else
      Trace([], t.end)
  }

  /**
   * `first`: at most the first upstream value, then completion; an empty
   * upstream gives no value and its own terminal.
   */
  function First<T>(t: Trace<T>): (r: Trace<T>)
    ensures |r.values| <= 1 && r.values <= t.values
    ensures r.values == [] <==> t.values == []
    ensures r.values == [] ==> r.end == t.end
    ensures r.values != [] ==> r.end == Complete
  {
    if t.values == [] then Trace([], t.end) else Trace([t.values[0]], Complete)
  }

  predicate AllComplete<T, U>(vs: seq<T>, f: T -> Trace<U>) {
    forall i :: 0 <= i < |vs| ==> f(vs[i]).end == Complete
  }

  /** The value runs `f` produces for each of `vs`, in order. */
  function Outputs<T, U>(vs: seq<T>, f: T -> Trace<U>): seq<seq<U>> {
    seq(|vs|, i requires 0 <= i < |vs| => f(vs[i]).values)
  }

  /**
   * `flatMap`, sequentially: the trace of `f(v)` for each upstream value `v`,
   * concatenated in upstream order. An error from a mapped trace ends the
   * output and halts further mapping; otherwise the upstream terminal ends it.
   */
  function FlatMap<T, U>(t: Trace<T>, f: T -> Trace<U>): (r: Trace<U>)
    ensures t.end.Error? ==> r.end.Error?
    ensures r.end == Complete ==> t.end == Complete && AllComplete(t.values, f)
    decreases |t.values|
  {
    if t.values == [] then Trace([], t.end)
    else
      var head := f(t.values[0]);
      if head.end.Error? then head
      else
        var rest := FlatMap(Trace(t.values[1..], t.end), f);
        assert rest.end == Complete ==> forall i :: 1 <= i < |t.values| ==> t.values[i] == t.values[1..][i - 1];
        Trace(head.values + rest.values, rest.end)
  }

  /*** Laws of the algebra ***/

  /** When no mapped trace fails, `flatMap` is the in-order concatenation ending with the upstream terminal. */
  lemma {:induction false} FlatMapAllComplete<T, U>(t: Trace<T>, f: T -> Trace<U>)
    requires AllComplete(t.values, f)
    ensures FlatMap(t, f) == Trace(Flatten(Outputs(t.values, f)), t.end)
    decreases |t.values|
  {
    var vs := t.values;
    if vs != [] {
      var tail := Trace(vs[1..], t.end);
      assert AllComplete(tail.values, f) by {
        forall i | 0 <= i < |tail.values| ensures f(tail.values[i]).end == Complete {
          assert tail.values[i] == vs[i + 1];
        }
      }
      FlatMapAllComplete(tail, f);
      assert Outputs(vs, f) == [f(vs[0]).values] + Outputs(vs[1..], f);
    }
  }

  /**
   * When the mapped trace of upstream value `k` is the first to fail, the output
   * is everything before it followed by that trace, error included.
   */
  lemma {:induction false} FlatMapFirstError<T, U>(t: Trace<T>, f: T -> Trace<U>, k: nat)
    requires k < |t.values| && f(t.values[k]).end.Error?
    requires AllComplete(t.values[..k], f)
    ensures FlatMap(t, f) == Trace(Flatten(Outputs(t.values[..k], f)) + f(t.values[k]).values, f(t.values[k]).end)
    decreases k
  {
    var vs := t.values;
    if k == 0 {
      assert Outputs(vs[..0], f) == [];
    } else {
      var tail := Trace(vs[1..], t.end);
      var pre := tail.values[..k - 1];
      assert pre == vs[1..k];
      assert AllComplete(pre, f) by {
        forall i | 0 <= i < |pre| ensures f(pre[i]).end == Complete {
          assert pre[i] == vs[..k][i + 1];
        }
      }
      assert f(vs[0]).end == Complete by { assert vs[..k][0] == vs[0]; }
      FlatMapFirstError(tail, f, k - 1);
      assert Outputs(vs[..k], f) == [f(vs[0]).values] + Outputs(tail.values[..k - 1], f);
    }
  }

  /**
   * The two ways a `flatMap` can end: with every mapped trace complete, the
   * concatenation and the upstream terminal; otherwise at the first failing
   * mapped trace, with everything before it and that trace's error.
   */
  lemma FlatMapOutcome<T, U>(t: Trace<T>, f: T -> Trace<U>)
    ensures AllComplete(t.values, f) ==> FlatMap(t, f) == Trace(Flatten(Outputs(t.values, f)), t.end)
    ensures forall k :: 0 <= k < |t.values| && f(t.values[k]).end.Error? && AllComplete(t.values[..k], f) ==>
              FlatMap(t, f) == Trace(Flatten(Outputs(t.values[..k], f)) + f(t.values[k]).values, f(t.values[k]).end)
  {
    if AllComplete(t.values, f) {
      FlatMapAllComplete(t, f);
    }
    forall k | 0 <= k < |t.values| && f(t.values[k]).end.Error? && AllComplete(t.values[..k], f)
      ensures FlatMap(t, f) == Trace(Flatten(Outputs(t.values[..k], f)) + f(t.values[k]).values, f(t.values[k]).end)
    {
      FlatMapFirstError(t, f, k);
    }
  }

  /** Mapping pointwise-equal functions gives the same output. */
  lemma {:induction false} FlatMapCongruence<T, U>(t: Trace<T>, f: T -> Trace<U>, g: T -> Trace<U>)
    requires forall i :: 0 <= i < |t.values| ==> f(t.values[i]) == g(t.values[i])
    ensures FlatMap(t, f) == FlatMap(t, g)
    decreases |t.values|
  {
    if t.values != [] {
      var tail := Trace(t.values[1..], t.end);
      assert forall i :: 0 <= i < |tail.values| ==> tail.values[i] == t.values[i + 1];
      FlatMapCongruence(tail, f, g);
    }
  }

  /** `flatMap` over an upstream that is itself a concatenation. */
  lemma {:induction false} FlatMapAppend<T, U>(a: seq<T>, b: seq<T>, end: Terminal, f: T -> Trace<U>)
    ensures var front := FlatMap(Trace(a, Complete), f);
            var back := FlatMap(Trace(b, end), f);
            FlatMap(Trace(a + b, end), f)
              == if front.end.Error? then front else Trace(front.values + back.values, back.end)
    decreases |a|
  {
    if a == [] {
      assert a + b == b;
    } else {
      assert (a + b)[0] == a[0];
      assert (a + b)[1..] == a[1..] + b;
      FlatMapAppend(a[1..], b, end, f);
    }
  }

  /** Chaining two `flatMap`s is one `flatMap` whose mapper chains the second onto the first. */
  lemma {:induction false} FlatMapAssociative<T, U, W>(t: Trace<T>, f: T -> Trace<U>, g: U -> Trace<W>)
    ensures FlatMap(FlatMap(t, f), g) == FlatMap(t, x => FlatMap(f(x), g))
    decreases |t.values|
  {
    var h := x => FlatMap(f(x), g);
    if t.values != [] {
      var head := f(t.values[0]);
      if head.end.Error? {
        assert FlatMap(t, f) == head;
      } else {
        var tail := Trace(t.values[1..], t.end);
        var rest := FlatMap(tail, f);
        assert FlatMap(t, f) == Trace(head.values + rest.values, rest.end);
        FlatMapAppend(head.values, rest.values, rest.end, g);
        assert Trace(head.values, Complete) == head;
        FlatMapAssociative(tail, f, g);
      }
    }
  }

  /** `just(v)` is a left identity of `flatMap`. */
  lemma JustLeftIdentity<T, U>(v: T, f: T -> Trace<U>)
    ensures FlatMap(Just(v), f) == f(v)
  {
    assert Just(v).values[1..] == [];
    assert f(v).values + [] == f(v).values;
  }

  /** `just` is a right identity of `flatMap`. */
  lemma {:induction false} JustRightIdentity<T>(t: Trace<T>)
    ensures FlatMap(t, x => Just(x)) == t
    decreases |t.values|
  {
    if t.values != [] {
      JustRightIdentity(Trace(t.values[1..], t.end));
      assert [t.values[0]] + t.values[1..] == t.values;
    }
  }

  /** `empty()` maps to nothing, and mapping everything to `empty()` keeps only the terminal. */
  lemma EmptyAnnihilates<T, U>(t: Trace<T>, f: T -> Trace<U>)
    ensures FlatMap(Empty<T>(), f) == Empty<U>()
    ensures FlatMap(t, x => Empty<U>()) == Trace([], t.end)
  {
    var z := x => Empty<U>();
    FlatMapAllComplete(t, z);
    assert Flatten(Outputs(t.values, z)) == [] by {
      FlattenOfEmpties(Outputs(t.values, z));
    }
  }

  lemma {:induction false} FlattenOfEmpties<U>(ss: seq<seq<U>>)
    requires forall i :: 0 <= i < |ss| ==> ss[i] == []
    ensures Flatten(ss) == []
    decreases |ss|
  {
    if ss != [] {
      FlattenOfEmpties(ss[1..]);
    }
  }

  /** `just(values...)` of one value is `just(value)`. */
  lemma JustAllSingleton<T>(v: T)
    ensures JustAll([v]) == Just(v)
  {
  }

  /** `filter` distributes over concatenation, so it keeps the matching values in their order. */
  lemma {:induction false} FilterValuesAppend<T(!new)>(a: seq<T>, b: seq<T>, p: T -> bool)
    ensures FilterValues(a + b, p) == FilterValues(a, p) + FilterValues(b, p)
    decreases |a|
  {
    if a == [] {
      assert a + b == b;
    } else {
      assert (a + b)[0] == a[0];
      assert (a + b)[1..] == a[1..] + b;
      FilterValuesAppend(a[1..], b, p);
    }
  }

  /** `filter` is `flatMap` onto `just(v)` for matching values and `empty()` otherwise. */
  lemma {:induction false} FilterIsFlatMap<T(!new)>(t: Trace<T>, p: T -> bool)
    ensures Filter(t, p) == FlatMap(t, x => if p(x) then Just(x) else Empty())
    decreases |t.values|
  {
    if t.values != [] {
      FilterIsFlatMap(Trace(t.values[1..], t.end), p);
    }
  }

  /** `find` is `first` after `filter`. */
  lemma FindIsFirstOfFilter<T(!new)>(t: Trace<T>, p: T -> bool)
    ensures Find(t, p) == First(Filter(t, p))
  {
    FilterHead(t.values, p);
  }

  /** The filtered values start with the first match, and are empty exactly when nothing matches. */
  lemma {:induction false} FilterHead<T(!new)>(vs: seq<T>, p: T -> bool)
    ensures var i := IndexOfFirst(vs, p);
            var fs := FilterValues(vs, p);
            (fs == [] <==> i == |vs|) && (i < |vs| ==> fs[0] == vs[i])
    decreases |vs|
  {
    if vs != [] {
      FilterHead(vs[1..], p);
      var fs := FilterValues(vs, p);
      var rest := FilterValues(vs[1..], p);
      if p(vs[0]) {
        assert fs == [vs[0]] + rest;
      } else {
        assert fs == rest;
        var k := IndexOfFirst(vs[1..], p);
        assert IndexOfFirst(vs, p) == 1 + k;
        if k < |vs[1..]| {
          assert vs[1..][k] == vs[1 + k];
        }
      }
    }
  }

  /** `first` is `find` with a predicate every value satisfies. */
  lemma FirstIsFindAny<T>(t: Trace<T>)
    ensures First(t) == Find(t, x => true)
  {
    if t.values != [] {
      assert IsFirstMatch(t.values, x => true, 0);
    }
  }

  /** `first` is idempotent. */
  lemma FirstIdempotent<T>(t: Trace<T>)
    ensures First(First(t)) == First(t)
  {
  }

  /*** Delivery to the callbacks of `subscribe` ***/

  /** A callback passed to `subscribe`, identified by a token. */
  datatype Callback = Callback(id: nat)

  /** The four optional callbacks of `subscribe`; `None` is a `null` argument. */
  datatype Callbacks = Callbacks(
    next: Option<Callback>,
    error: Option<Callback>,
    complete: Option<Callback>,
    subscribe: Option<Callback>)

  /** An invocation of one of the callbacks. */
  datatype Signal<T> =
    | OnSubscribe(cb: Callback)
    | OnNext(cb: Callback, value: T)
    | OnError(cb: Callback, error: Throwable)
    | OnComplete(cb: Callback)
  {
    predicate IsTerminal() {
      OnError? || OnComplete?
    }
  }

  function NextSignals<T>(cb: Callback, vs: seq<T>): seq<Signal<T>>
    decreases |vs|
  {
    if vs == [] then [] else [OnNext(cb, vs[0])] + NextSignals(cb, vs[1..])
  }

  /** The values handed to `onNext` callbacks, in order. */
  function NextValues<T>(ss: seq<Signal<T>>): seq<T>
    decreases |ss|
  {
    if ss == [] then []
    else (if ss[0].OnNext? then [ss[0].value] else []) + NextValues(ss[1..])
  }

  /**
   * `subscribe(context, next, error, complete, subscribe)` on a driver that
   * honours its contract: every callback may be absent; the subscribe callback
   * runs first, then `next` receives each value, then the callback for the
   * terminal signal runs, if present.
   */
  function Subscribe<T>(t: Trace<T>, cbs: Callbacks): (r: seq<Signal<T>>)
    ensures NextValues(r) == if cbs.next.Some? then t.values else []
    ensures forall i :: 0 <= i < |r| && r[i].IsTerminal() ==> i == |r| - 1
    ensures (|r| > 0 && r[0].OnSubscribe?) <==> cbs.subscribe.Some?
    ensures (|r| > 0 && r[|r| - 1].OnError?) <==> t.end.Error? && cbs.error.Some?
    ensures (|r| > 0 && r[|r| - 1].OnComplete?) <==> t.end.Complete? && cbs.complete.Some?
    ensures forall i :: 0 <= i < |r| && r[i].OnNext? ==> cbs.next == Some(r[i].cb)
    ensures |r| > 0 && r[0].OnSubscribe? ==> cbs.subscribe == Some(r[0].cb)
    ensures |r| > 0 && r[|r| - 1].OnError? ==> cbs.error == Some(r[|r| - 1].cb) && t.end == Error(r[|r| - 1].error)
    ensures |r| > 0 && r[|r| - 1].OnComplete? ==> cbs.complete == Some(r[|r| - 1].cb)
  {
    var head: seq<Signal<T>> := if cbs.subscribe.Some? then [OnSubscribe(cbs.subscribe.value)] else [];
    var body := if cbs.next.Some? then NextSignals(cbs.next.value, t.values) else [];
    var tail: seq<Signal<T>> :=
      match t.end
      case Complete => if cbs.complete.Some? then [OnComplete(cbs.complete.value)] else []
      case Error(e) => if cbs.error.Some? then [OnError(cbs.error.value, e)] else [];
    NextSignalsShape(if cbs.next.Some? then cbs.next.value else Callback(0), t.values);
    SignalsShape(head, body, tail);
    SignalsOrigin(head, body, tail);
    head + body + tail
  }

  /** The shape of a delivery: an optional subscribe signal, next signals only, an optional terminal signal. */
  lemma SignalsShape<T>(head: seq<Signal<T>>, body: seq<Signal<T>>, tail: seq<Signal<T>>)
    requires |head| <= 1 && (forall i :: 0 <= i < |head| ==> head[i].OnSubscribe?)
    requires forall i :: 0 <= i < |body| ==> body[i].OnNext?
    requires |tail| <= 1 && (forall i :: 0 <= i < |tail| ==> tail[i].IsTerminal())
    ensures NextValues(head + body + tail) == NextValues(body)
    ensures var r := head + body + tail;
            forall i :: 0 <= i < |r| && r[i].IsTerminal() ==> i == |r| - 1
    ensures var r := head + body + tail;
            (|r| > 0 && r[0].OnSubscribe?) <==> |head| == 1
    ensures var r := head + body + tail;
            |r| > 0 && r[|r| - 1].IsTerminal() ==> |tail| == 1 && r[|r| - 1] == tail[0]
    ensures |tail| == 1 ==> (head + body + tail)[|head + body + tail| - 1] == tail[0]
  {
    NextValuesAppend(head, body);
    NextValuesAppend(head + body, tail);
    if |head| == 1 {
      assert NextValues(head) == [];
    }
    if |tail| == 1 {
      assert NextValues(tail) == [];
    }
    var r := head + body + tail;
    forall i | 0 <= i < |r| && r[i].IsTerminal() ensures i == |r| - 1 {
      if i < |head| {
        assert r[i] == head[i];
      }
    }
    if |r| > 0 && r[0].OnSubscribe? && |head| == 0 && |body| == 0 {
      assert r[0] == tail[0];
    }
  }

  /** In a delivery, every next signal comes from `body`, and a leading subscribe signal is `head`'s. */
  lemma SignalsOrigin<T>(head: seq<Signal<T>>, body: seq<Signal<T>>, tail: seq<Signal<T>>)
    requires |head| <= 1 && (forall i :: 0 <= i < |head| ==> head[i].OnSubscribe?)
    requires forall i :: 0 <= i < |body| ==> body[i].OnNext?
    requires |tail| <= 1 && (forall i :: 0 <= i < |tail| ==> tail[i].IsTerminal())
    ensures var r := head + body + tail;
            forall i :: 0 <= i < |r| && r[i].OnNext? ==> |head| <= i < |head| + |body| && r[i] == body[i - |head|]
    ensures var r := head + body + tail;
            |r| > 0 && r[0].OnSubscribe? ==> |head| == 1 && r[0] == head[0]
  {
  }

  lemma {:induction false} NextSignalsShape<T>(cb: Callback, vs: seq<T>)
    ensures |NextSignals(cb, vs)| == |vs|
    ensures forall i :: 0 <= i < |vs| ==> NextSignals(cb, vs)[i] == OnNext(cb, vs[i])
    ensures NextValues(NextSignals(cb, vs)) == vs
    decreases |vs|
  {
    if vs != [] {
      NextSignalsShape(cb, vs[1..]);
    }
  }

  lemma {:induction false} NextValuesAppend<T>(a: seq<Signal<T>>, b: seq<Signal<T>>)
    ensures NextValues(a + b) == NextValues(a) + NextValues(b)
    decreases |a|
  {
    if a == [] {
      assert a + b == b;
    } else {
      var h := if a[0].OnNext? then [a[0].value] else [];
      assert (a + b)[0] == a[0];
      assert (a + b)[1..] == a[1..] + b;
      assert NextValues(a + b) == h + NextValues(a[1..] + b);
      NextValuesAppend(a[1..], b);
      assert NextValues(a) == h + NextValues(a[1..]);
    }
  }
}

=== FILE: statement.dfy ===
/**
 * Executing a statement (Statement and BaseStatement): `now` and `after` look
 * up the active driver and subscribe it to a freshly obtained context, passing
 * the callbacks on. Shorter overloads pad the missing trailing callbacks with
 * `null`, and `after` ignores its delay.
 *
 * A statement is represented by the trace its `get()` returns.
 */
module Statement {
  import opened Wrappers
  import opened Context
  import opened ProactiveDriver
  import opened DriverRegistry

  /** A `java.time.Duration`. */
  datatype Duration = Duration(nanos: int)

  /** An execution: the driver used and the callback invocations, or an IllegalStateException. */
  datatype Execution<T> =
    | Executed(driver: Driver, signals: seq<Signal<T>>, after: Registry)
    | NoDriver(after: Registry)

  const NoCallbacks := Callbacks(None, None, None, None)

  /** `now()`: the active driver's one-argument `subscribe`, which invokes no callback. */
  function NowBare<O>(reg: Registry, context: Trace<O>): (r: Execution<O>)
    ensures r.NoDriver? <==> !Available(reg)
    ensures r.NoDriver? ==> r.after == reg
    ensures r.Executed? ==> r.signals == [] && DefaultDriver(r.after) == Found(r.driver, r.after)
    ensures r.Executed? ==> DefaultDriver(reg) == Found(r.driver, r.after)
  {
    match DefaultDriver(reg)
    case Unavailable(after) => NoDriver(after)
    case Found(d, after) => Executed(d, [], after)
  }

  /** `now(next, error, complete, subscribe)`: the active driver's `subscribe` with the four callbacks unchanged. */
  function Now<O>(reg: Registry, context: Trace<O>, cbs: Callbacks): (r: Execution<O>)
    ensures r.NoDriver? <==> !Available(reg)
    ensures r.NoDriver? ==> r.after == reg
    ensures r.Executed? ==> DefaultDriver(r.after) == Found(r.driver, r.after)
    ensures r.Executed? ==> DefaultDriver(reg) == Found(r.driver, r.after)
    ensures r.Executed? ==> NextValues(r.signals) == if cbs.next.Some? then context.values else []
    ensures r.Executed? ==> forall i :: 0 <= i < |r.signals| && r.signals[i].IsTerminal() ==> i == |r.signals| - 1
    ensures r.Executed? ==> ((|r.signals| > 0 && r.signals[0].OnSubscribe?) <==> cbs.subscribe.Some?)
    ensures r.Executed? ==>
              ((|r.signals| > 0 && r.signals[|r.signals| - 1].OnError?) <==> context.end.Error? && cbs.error.Some?)
    ensures r.Executed? ==>
              ((|r.signals| > 0 && r.signals[|r.signals| - 1].OnComplete?) <==> context.end.Complete? && cbs.complete.Some?)
    ensures r.Executed? ==> r.signals == Subscribe(context, cbs)
  {
    match DefaultDriver(reg)
    case Unavailable(after) => NoDriver(after)
    case Found(d, after) => Executed(d, Subscribe(context, cbs), after)
  }

  /** `now(next)` is `now(next, null)`: only the next callback can run. */
  function Now1<O>(reg: Registry, context: Trace<O>, next: Option<Callback>): (r: Execution<O>)
    ensures r == Now(reg, context, Callbacks(next, None, None, None))
    ensures r.Executed? ==> forall i :: 0 <= i < |r.signals| ==> r.signals[i].OnNext?
  {
    NowNoTerminalOrSubscribe(reg, context, next);
    Now2(reg, context, next, None)
  }

  /** `now(next, error)` is `now(next, error, null)`. */
  function Now2<O>(reg: Registry, context: Trace<O>, next: Option<Callback>, error: Option<Callback>): (r: Execution<O>)
    ensures r == Now(reg, context, Callbacks(next, error, None, None))
    ensures r.Executed? ==> forall i :: 0 <= i < |r.signals| ==> !r.signals[i].OnComplete? && !r.signals[i].OnSubscribe?
  {
    NowNoCompleteOrSubscribe(reg, context, next, error);
    Now3(reg, context, next, error, None)
  }

  /** `now(next, error, complete)` is `now(next, error, complete, null)`. */
  function Now3<O>(reg: Registry, context: Trace<O>, next: Option<Callback>, error: Option<Callback>,
                   complete: Option<Callback>): (r: Execution<O>)
    ensures r == Now(reg, context, Callbacks(next, error, complete, None))
    ensures r.Executed? ==> forall i :: 0 <= i < |r.signals| ==> !r.signals[i].OnSubscribe?
  {
    NowNoSubscribe(reg, context, Callbacks(next, error, complete, None));
    Now(reg, context, Callbacks(next, error, complete, None))
  }

  /** `after(delay)` runs as `now()`: the delay is not used. */
  function AfterBare<O>(reg: Registry, delay: Duration, context: Trace<O>): (r: Execution<O>)
    ensures r == NowBare(reg, context)
  {
    NowBare(reg, context)
  }

  /** `after(delay, next, error, complete, subscribe)` runs as the matching `now`. */
  function After<O>(reg: Registry, delay: Duration, context: Trace<O>, cbs: Callbacks): (r: Execution<O>)
    ensures r == Now(reg, context, cbs)
  {
    Now(reg, context, cbs)
  }

  /** `after(delay, next, error)` is `after(delay, next, error, null)`. */
  function After2<O>(reg: Registry, delay: Duration, context: Trace<O>, next: Option<Callback>,
                     error: Option<Callback>): (r: Execution<O>)
    ensures r == Now2(reg, context, next, error)
  {
    After3(reg, delay, context, next, error, None)
  }

  /** `after(delay, next, error, complete)` is `after(delay, next, error, complete, null)`. */
  function After3<O>(reg: Registry, delay: Duration, context: Trace<O>, next: Option<Callback>,
                     error: Option<Callback>, complete: Option<Callback>): (r: Execution<O>)
    ensures r == Now3(reg, context, next, error, complete)
  {
    After(reg, delay, context, Callbacks(next, error, complete, None))
  }

  /*** Supporting facts about the padded overloads ***/

  lemma NowNoSubscribe<O>(reg: Registry, context: Trace<O>, cbs: Callbacks)
    requires cbs.subscribe.None?
    ensures var r := Now(reg, context, cbs);
            r.Executed? ==> forall i :: 0 <= i < |r.signals| ==> !r.signals[i].OnSubscribe?
  {
    var r := Now(reg, context, cbs);
    if r.Executed? {
      SubscribeWithout(context, cbs);
    }
  }

  lemma NowNoCompleteOrSubscribe<O>(reg: Registry, context: Trace<O>, next: Option<Callback>, error: Option<Callback>)
    ensures var r := Now(reg, context, Callbacks(next, error, None, None));
            r.Executed? ==> forall i :: 0 <= i < |r.signals| ==> !r.signals[i].OnComplete? && !r.signals[i].OnSubscribe?
  {
    var r := Now(reg, context, Callbacks(next, error, None, None));
    if r.Executed? {
      SubscribeWithout(context, Callbacks(next, error, None, None));
    }
  }

  lemma NowNoTerminalOrSubscribe<O>(reg: Registry, context: Trace<O>, next: Option<Callback>)
    ensures var r := Now(reg, context, Callbacks(next, None, None, None));
            r.Executed? ==> forall i :: 0 <= i < |r.signals| ==> r.signals[i].OnNext?
  {
    var r := Now(reg, context, Callbacks(next, None, None, None));
    if r.Executed? {
      SubscribeWithout(context, Callbacks(next, None, None, None));
    }
  }

  /** A callback that is absent is never invoked. */
  lemma SubscribeWithout<T>(t: Trace<T>, cbs: Callbacks)
    ensures var r := Subscribe(t, cbs);
            forall i :: 0 <= i < |r| ==>
              (r[i].OnSubscribe? ==> cbs.subscribe.Some?) &&
              (r[i].OnError? ==> cbs.error.Some?) &&
              (r[i].OnComplete? ==> cbs.complete.Some?) &&
              (r[i].OnNext? ==> cbs.next.Some?)
  {
    var r := Subscribe(t, cbs);
    forall i | 0 <= i < |r|
      ensures r[i].OnSubscribe? ==> cbs.subscribe.Some?
      ensures r[i].OnError? ==> cbs.error.Some?
      ensures r[i].OnComplete? ==> cbs.complete.Some?
      ensures r[i].OnNext? ==> cbs.next.Some?
    {
      if r[i].OnSubscribe? && i > 0 {
        SubscribeOnlyFirst(t, cbs, i);
      }
    }
  }

  /** The subscribe callback can only be the first invocation. */
  lemma SubscribeOnlyFirst<T>(t: Trace<T>, cbs: Callbacks, i: nat)
    requires 0 < i < |Subscribe(t, cbs)|
    ensures !Subscribe(t, cbs)[i].OnSubscribe?
  {
    var head: seq<Signal<T>> := if cbs.subscribe.Some? then [OnSubscribe(cbs.subscribe.value)] else [];
    var cb := if cbs.next.Some? then cbs.next.value else Callback(0);
    NextSignalsShape(cb, t.values);
    assert Subscribe(t, cbs)[..|head|] == head;
  }

  /*** Properties of execution ***/

  /** `now()` observes exactly what `now` with four null callbacks observes: nothing. */
  lemma NowBareIsNowWithoutCallbacks<O>(reg: Registry, context: Trace<O>)
    ensures NowBare(reg, context) == Now(reg, context, NoCallbacks)
  {
  }

  /**
   * A statement can be executed again: a second execution uses the same driver,
   * leaves the registry as the first left it, and observes the same signals.
   */
  lemma ReexecutionIsIndependent<O>(reg: Registry, context: Trace<O>, cbs: Callbacks)
    ensures var first := Now(reg, context, cbs);
            var second := Now(first.after, context, cbs);
            second == first
  {
    if Available(reg) {
      LookupIsStable(reg);
    }
  }
}

=== FILE: the.dfy ===
/**
 * `The` (proactive.statements.The): lifts raw values, or an external
 * publisher, into a statement. The context is built once, by the driver
 * active at construction, and every `get()` returns that same context.
 */
module TheStatement {
  import opened Context
  import opened ProactiveDriver
  import opened DriverRegistry
  import opened Wrappers

  /** A lifted statement: its fixed context and the driver that built it. */
  datatype The<O> = The(context: Trace<O>, builtBy: Driver)

  /** The outcome of a factory: the statement, or an IllegalStateException when no driver exists. */
  datatype Built<O> = Built(statement: The<O>, after: Registry) | NoDriver(after: Registry)

  /** Builds a statement over `context` with the active driver. */
  function Build<O>(reg: Registry, context: Trace<O>): (r: Built<O>)
    ensures r.NoDriver? <==> !Available(reg)
    ensures r.NoDriver? ==> r.after == reg
    ensures r.Built? ==> r.statement.context == context && Found(r.statement.builtBy, r.after) == DefaultDriver(reg)
  {
    match DefaultDriver(reg)
    case Unavailable(after) => NoDriver(after)
    case Found(d, after) => Built(The(context, d), after)
  }

  /** `value(v)`: the driver's `just(v)`, one value then completion. */
  function Value<O>(reg: Registry, v: O): (r: Built<O>)
    ensures r.NoDriver? <==> !Available(reg)
    ensures r.Built? ==> Get(r.statement).values == [v] && Get(r.statement).end == Complete
    ensures r.NoDriver? ==> r.after == reg
    ensures r.Built? ==> Found(r.statement.builtBy, r.after) == DefaultDriver(reg)
  {
    Build(reg, Just(v))
  }

  /** `series(vs...)`: the values in argument order, then completion. */
  function Series<O>(reg: Registry, vs: seq<O>): (r: Built<O>)
    ensures r.NoDriver? <==> !Available(reg)
    ensures r.Built? ==> Get(r.statement).values == vs && Get(r.statement).end == Complete
    ensures r.NoDriver? ==> r.after == reg
    ensures r.Built? ==> Found(r.statement.builtBy, r.after) == DefaultDriver(reg)
  {
    Build(reg, JustAll(vs))
  }

  /**
   * `publisher(Publisher)`: a context over a Reactive Streams publisher,
   * represented by what that publisher emits.
   */
  function Publisher<O>(reg: Registry, emits: Trace<O>): (r: Built<O>)
    ensures r.NoDriver? <==> !Available(reg)
    ensures r.Built? ==> Get(r.statement) == emits
    ensures r.NoDriver? ==> r.after == reg
    ensures r.Built? ==> Found(r.statement.builtBy, r.after) == DefaultDriver(reg)
  {
    Build(reg, emits)
  }

  /**
   * `publisher(Flow.Publisher)`: like `publisher(Publisher)`, the external
   * publisher is represented by what it emits, so both shapes build the same
   * context from the same emissions; how the driver bridges a Flow publisher
   * is not part of this model.
   */
  function FlowPublisher<O>(reg: Registry, emits: Trace<O>): (r: Built<O>)
    ensures r.NoDriver? <==> !Available(reg)
    ensures r.Built? ==> Get(r.statement) == emits
    ensures r.NoDriver? ==> r.after == reg
    ensures r.Built? ==> Found(r.statement.builtBy, r.after) == DefaultDriver(reg)
  {
    Build(reg, emits)
  }

  /** `get()`: the context fixed at construction. */
  function Get<O>(t: The<O>): (r: Trace<O>)
    ensures r == t.context
  {
    t.context
  }

  /** Both publisher shapes give the same statement for the same emissions. */
  lemma PublisherShapesAgree<O>(reg: Registry, emits: Trace<O>)
    ensures Publisher(reg, emits) == FlowPublisher(reg, emits)
  {
  }

  /**
   * The statement keeps the driver that was active when it was built: changing
   * the default driver afterwards changes neither its context nor its driver.
   */
  lemma DriverFixedAtConstruction<O>(reg: Registry, v: O, later: Option<Driver>)
    requires Available(reg)
    ensures var b := Value(reg, v);
            var reg' := SetDefaultDriver(b.after, later);
            b.Built? && b.statement.builtBy == DefaultDriver(reg).driver &&
            Get(b.statement) == Just(v) &&
            (later.Some? ==> DefaultDriver(reg').driver == later.value)
  {
  }
}

=== FILE: try.dfy ===
/**
 * `Try` (proactive.statements.Try): resolves a statement and sends each of
 * its values to a follow-up, a function from the value to a statement; the
 * follow-ups' outputs are concatenated in upstream order, and the first
 * failing follow-up ends the output with its error. Chains of `then`
 * feed each stage's output to the next.
 */
module TryStatement {
  import opened Context
  import opened ProactiveDriver

  datatype Try<O> = Try(that: Trace<O>)

  /** A `then` stage: the statement it consumes and the follow-up applied to each of its values. */
  datatype Then<!I, O> = Then(doThat: Trace<I>, thenThat: I -> Trace<O>)

  /** `Try.resolving(statement)`. */
  function Resolving<O>(s: Trace<O>): (t: Try<O>)
    ensures TryGet(t) == s
  {
    Try(s)
  }

  /** `Try.get()`: the resolved statement's own context, unchanged. */
  function TryGet<O>(t: Try<O>): (r: Trace<O>)
    ensures r == t.that
  {
    t.that
  }

  /** `Try.then(function)`: a stage consuming this `Try`. */
  function TryThen<O, T>(t: Try<O>, f: O -> Trace<T>): (th: Then<O, T>)
    ensures th.doThat == TryGet(t) && th.thenThat == f
    ensures TryGet(t).values == [] ==> ThenGet(th) == Trace([], TryGet(t).end)
  {
    Then(TryGet(t), f)
  }

  /** `Try.then(statement)` is `then(value -> statement)`. */
  function TryThenStatement<O(!new), T>(t: Try<O>, s: Trace<T>): (th: Then<O, T>)
    ensures th.doThat == TryGet(t)
    ensures forall x :: th.thenThat(x) == s
  {
    TryThen(t, x => s)
  }

  /**
   * `Then.get()`: each upstream value's follow-up, in upstream order. When
   * every follow-up completes, the output is their values concatenated and
   * ends as the upstream ends; the first failing follow-up ends it instead.
   */
  function ThenGet<I, O>(th: Then<I, O>): (r: Trace<O>)
    ensures AllComplete(th.doThat.values, th.thenThat) ==>
              r == Trace(Flatten(Outputs(th.doThat.values, th.thenThat)), th.doThat.end)
    ensures th.doThat.values == [] ==> r == Trace([], th.doThat.end)
    ensures th.doThat.end.Error? ==> r.end.Error?
    ensures r.end == Complete ==> th.doThat.end == Complete && AllComplete(th.doThat.values, th.thenThat)
    ensures forall k :: 0 <= k < |th.doThat.values| && th.thenThat(th.doThat.values[k]).end.Error? &&
                        AllComplete(th.doThat.values[..k], th.thenThat) ==>
              r == Trace(Flatten(Outputs(th.doThat.values[..k], th.thenThat)) + th.thenThat(th.doThat.values[k]).values,
                         th.thenThat(th.doThat.values[k]).end)
    ensures r == FlatMap(th.doThat, th.thenThat)
  {
    FlatMapOutcome(th.doThat, th.thenThat);
    FlatMap(th.doThat, th.thenThat)
  }

  /** `Then.then(function)`: a further stage consuming this one's output. */
  function ThenThen<I, O, T>(th: Then<I, O>, f: O -> Trace<T>): (next: Then<O, T>)
    ensures next.doThat == ThenGet(th) && next.thenThat == f
    ensures th.doThat.values == [] ==> ThenGet(next) == Trace([], th.doThat.end)
  {
    Then(ThenGet(th), f)
  }

  /** `Then.then(statement)` is `then(value -> statement)`. */
  function ThenThenStatement<I, O(!new), T>(th: Then<I, O>, s: Trace<T>): (next: Then<O, T>)
    ensures next.doThat == ThenGet(th)
    ensures forall x :: next.thenThat(x) == s
  {
    ThenThen(th, x => s)
  }

  /*** Lemmas ***/

  /** Resolving adds nothing: a `Try` gives exactly its statement's values and terminal. */
  lemma ResolvingIsTransparent<O>(s: Trace<O>)
    ensures TryGet(Resolving(s)) == s
  {
  }

  /** Chaining two stages is one stage whose follow-up runs the second stage over the first's output. */
  lemma ChainAssociative<O, T, U>(s: Trace<O>, f: O -> Trace<T>, g: T -> Trace<U>)
    ensures ThenGet(ThenThen(TryThen(Resolving(s), f), g)) ==
            ThenGet(TryThen(Resolving(s), x => ThenGet(Then(f(x), g))))
  {
    FlatMapAssociative(s, f, g);
    FlatMapCongruence(s, x => FlatMap(f(x), g), x => ThenGet(Then(f(x), g)));
  }

  /** A follow-up that re-emits its value leaves the statement unchanged. */
  lemma ThenJustIsIdentity<O>(s: Trace<O>)
    ensures ThenGet(TryThen(Resolving(s), x => Just(x))) == s
  {
    JustRightIdentity(s);
  }

  /** `n` copies of `c`, one after the other. */
  function Repeat<T>(c: seq<T>, n: nat): (r: seq<T>)
    ensures |r| == n * |c|
  {
    if n == 0 then [] else c + Repeat(c, n - 1)
  }

  /** A constant completing follow-up emits its values once per upstream value, and the output ends as the upstream ends. */
  lemma ThenStatementRepeats<O(!new), T>(s: Trace<O>, k: Trace<T>)
    requires k.end == Complete
    ensures ThenGet(TryThenStatement(Resolving(s), k)) == Trace(Repeat(k.values, |s.values|), s.end)
  {
    var th := TryThenStatement(Resolving(s), k);
    FlattenOfCopies(Outputs(s.values, th.thenThat), k.values);
  }

  /** Flattening copies of one sequence repeats it. */
  lemma {:induction false} FlattenOfCopies<T>(ss: seq<seq<T>>, c: seq<T>)
    requires forall i :: 0 <= i < |ss| ==> ss[i] == c
    ensures Flatten(ss) == Repeat(c, |ss|)
    decreases |ss|
  {
    if ss != [] {
      FlattenOfCopies(ss[1..], c);
    }
  }

  /** `resolving(series(1, 2, 3)).then(v -> value(v * 10))` gives 10, 20, 30. */
  lemma TimesTenExample()
    ensures ThenGet(TryThen(Resolving(JustAll([1, 2, 3])), (v: int) => Just(v * 10))) == JustAll([10, 20, 30])
  {
    var s := JustAll([1, 2, 3]);
    var f := (v: int) => Just(v * 10);
    assert AllComplete(s.values, f);
    var outs := Outputs(s.values, f);
    assert outs == [[10], [20], [30]];
    assert outs[1..] == [[20], [30]] && outs[2..] == [[30]] && outs[3..] == [];
    assert Flatten(outs[2..]) == [30];
    assert Flatten(outs[1..]) == [20, 30];
  }
}

=== FILE: util.dfy ===
/**
 * Predicate helpers of the statement DSL (proactive.core.Util): truthiness and
 * null-safe equality over a small universe of Java values.
 */
module Util {

  /**
   * The values a statement can carry, as far as the helpers can tell them
   * apart: `null`, a `java.lang.Boolean`, or any other object. Other objects
   * are identified by their payload, and Java reference identity is modelled
   * as value equality.
   */
  datatype Value = Null | Bool(b: bool) | Other(x: int)

  /** `isTruthy`: a Boolean is truthy when it is `true`; anything else when it is non-null. */
  function IsTruthy(v: Value): (r: bool)
    ensures r <==> v != Null && v != Bool(false)
  {
    match v
    case Bool(b) => b
    case _ => v != Null
  }

  /** `isFalsy`: the negation of `isTruthy`. */
  function IsFalsy(v: Value): (r: bool)
    ensures r <==> v == Null || v == Bool(false)
  {
    !IsTruthy(v)
  }

  /**
   * `Object.equals` on a non-null receiver: a Boolean equals a Boolean with the
   * same truth value, any other object equals an object with the same payload.
   */
  function Equals(a: Value, b: Value): bool
    requires a != Null
  {
    if a.Bool? then b.Bool? && b.b == a.b else b.Other? && b.x == a.x
  }

  /** `areEqual`: identical references, or a non-null receiver that `equals` the other. */
  function AreEqual(a: Value, b: Value): (r: bool)
    ensures r <==> a == b
  {
    a == b || (a != Null && Equals(a, b))
  }

  lemma TruthyCases()
    ensures !IsTruthy(Null)
    ensures !IsTruthy(Bool(false)) && IsTruthy(Bool(true))
    ensures forall x :: IsTruthy(Other(x))
  {
  }

  lemma FalsyIsNotTruthy(v: Value)
    ensures IsFalsy(v) == !IsTruthy(v)
  {
  }

  lemma AreEqualProperties(a: Value, b: Value)
    ensures AreEqual(a, a)
    ensures AreEqual(a, b) == AreEqual(b, a)
    ensures AreEqual(Null, b) <==> b == Null
    ensures a != Null ==> !AreEqual(a, Null)
  {
  }
}

=== FILE: wait.dfy ===
/**
 * `Wait` (proactive.statements.Wait): passes on the first value of the
 * required statement that satisfies a predicate, then completes. The default
 * predicate is truthiness; `is`, `isNot` and `matches` replace it.
 */
module WaitStatement {
  import opened Util
  import opened Context
  import opened ProactiveDriver

  datatype Wait = Wait(requirement: Trace<Value>)

  datatype WaitUntilMatches = WaitUntilMatches(requirement: Trace<Value>, test: Value -> bool)

  /** `Wait.until(statement)`. */
  function Until(s: Trace<Value>): (w: Wait)
    ensures w.requirement == s
  {
    Wait(s)
  }

  /** `matches(predicate)`: the built statement waits on the same requirement for the first value passing `p`. */
  function MatchesOf(w: Wait, p: Value -> bool): (m: WaitUntilMatches)
    ensures m.requirement == w.requirement && m.test == p
    ensures FindsFirst(w.requirement, p, WaitUntilMatchesGet(m))
  {
    WaitUntilMatches(w.requirement, p)
  }

  /** `is(v)`: waits for a value equal to `v`. */
  function Is(w: Wait, v: Value): (m: WaitUntilMatches)
    ensures m.requirement == w.requirement
    ensures forall x :: m.test(x) <==> x == v
  {
    MatchesOf(w, x => AreEqual(x, v))
  }

  /** `isNot(v)`: waits for a value different from `v`. */
  function IsNot(w: Wait, v: Value): (m: WaitUntilMatches)
    ensures m.requirement == w.requirement
    ensures forall x :: m.test(x) <==> x != v
  {
    MatchesOf(w, x => !AreEqual(x, v))
  }

  /** `Wait.get()`: the first truthy value of the requirement. */
  function WaitGet(w: Wait): (r: Trace<Value>)
    ensures FindsFirst(w.requirement, IsTruthy, r)
    ensures r.values != [] ==> r.values[0] in w.requirement.values && r.values[0] != Null && r.values[0] != Bool(false)
  {
    Find(w.requirement, IsTruthy)
  }

  /** `WaitUntilMatches.get()`: the first value of the requirement that passes the predicate. */
  function WaitUntilMatchesGet(w: WaitUntilMatches): (r: Trace<Value>)
    ensures FindsFirst(w.requirement, w.test, r)
    ensures r.values != [] ==> r.values[0] in w.requirement.values && w.test(r.values[0])
  {
    Find(w.requirement, w.test)
  }

  /*** Lemmas ***/

  /** Waiting with the default predicate is `matches(Util::isTruthy)`. */
  lemma UntilIsMatchesTruthy(w: Wait)
    ensures WaitGet(w) == WaitUntilMatchesGet(MatchesOf(w, IsTruthy))
  {
  }

  /**
   * `is(v)` yields `v` itself and completes when the requirement emits `v`;
   * otherwise it yields nothing and ends as the requirement ends.
   */
  lemma {:induction false} IsYieldsTheValue(w: Wait, v: Value)
    ensures WaitUntilMatchesGet(Is(w, v)) ==
            if v in w.requirement.values then Trace([v], Complete) else Trace([], w.requirement.end)
  {
    var m := Is(w, v);
    var r := WaitUntilMatchesGet(m);
    var vs := w.requirement.values;
    if v in vs {
      var k :| 0 <= k < |vs| && vs[k] == v;
      assert m.test(vs[k]);
      assert !NoMatch(vs, m.test);
      var i :| IsFirstMatch(vs, m.test, i) && r == Trace([vs[i]], Complete);
      assert m.test(vs[i]);
    } else {
      assert NoMatch(vs, m.test);
    }
  }

  /**
   * `isNot(v)` skips every leading `v` and yields the first other value;
   * when the requirement emits only `v`, nothing is yielded.
   */
  lemma IsNotSkipsTheValue(w: Wait, v: Value)
    ensures var r := WaitUntilMatchesGet(IsNot(w, v));
            var vs := w.requirement.values;
            if forall i :: 0 <= i < |vs| ==> vs[i] == v then r == Trace([], w.requirement.end)
            else exists k :: 0 <= k < |vs| && vs[k] != v && (forall j :: 0 <= j < k ==> vs[j] == v) &&
                             r == Trace([vs[k]], Complete)
  {
    var m := IsNot(w, v);
    var r := WaitUntilMatchesGet(m);
    var vs := w.requirement.values;
    if !forall i :: 0 <= i < |vs| ==> vs[i] == v {
      assert !NoMatch(vs, m.test);
      var i :| IsFirstMatch(vs, m.test, i) && r == Trace([vs[i]], Complete);
      assert forall j :: 0 <= j < i ==> !m.test(vs[j]);
    }
  }

  /** Waiting for any value at all is `first`. */
  lemma AnythingIsFirst(s: Trace<Value>)
    ensures WaitUntilMatchesGet(MatchesOf(Until(s), x => true)) == First(s)
  {
    FirstIsFindAny(s);
  }

  /** The first passing value is chosen even when later values pass too. */
  lemma SeriesExample()
    ensures WaitUntilMatchesGet(MatchesOf(Until(JustAll([Other(1), Other(2), Other(3), Other(4)])),
                                          (x: Value) => x.Other? && x.x > 2)) == Just(Other(3))
  {
    var m := MatchesOf(Until(JustAll([Other(1), Other(2), Other(3), Other(4)])), (x: Value) => x.Other? && x.x > 2);
    var r := WaitUntilMatchesGet(m);
    assert m.test(m.requirement.values[2]);
    var i :| IsFirstMatch(m.requirement.values, m.test, i) && r == Trace([m.requirement.values[i]], Complete);
    assert !m.test(m.requirement.values[0]) && !m.test(m.requirement.values[1]);
  }

  /** When no value passes, the wait completes without a value: not an error. */
  lemma NoMatchExample()
    ensures WaitUntilMatchesGet(MatchesOf(Until(JustAll([Other(1), Other(2)])), (x: Value) => x.Other? && x.x > 5)) == Empty()
  {
    var m := MatchesOf(Until(JustAll([Other(1), Other(2)])), (x: Value) => x.Other? && x.x > 5);
    assert NoMatch(m.requirement.values, m.test);
  }
}

=== FILE: wrappers.dfy ===
/** Nullable references: Java's `null` is modelled as `None`. */
module Wrappers {

  datatype Option<+T> = None | Some(value: T)
}
